=== FILE: README.md ===
# Chunked upload receiver: a Dafny model

This project models the core of a hapi.js upload handler. A browser client
sends a file as a sequence of chunk requests. Each request names its client
(`x-clientid`), its transfer (`x-transid`) and its chunk index (`x-partial`).
The chunk carrying the original filename (`x-filename`) also carries the
total number of chunks, encoded as its own index, plus optional ancillary
JSON (`x-data`). The handler `recieveFile` keeps an in-memory registry
(client id → transfer id → record) in which it:

- counts every chunk's bytes against a maximum transfer size, and purges the
  transfer with a 403 reply when the declared or accumulated size is over it;
- writes each chunk to a temp file and records the path under its index;
- takes the count, the filename and the parsed data from the filename chunk;
- once every chunk is there, has the chunks merged, calls the completion
  callback, replies `OK`, and removes the record and the merged file.

Before that, the handler factory normalises its configuration: the staging
directory gets a trailing slash, and the cross-origin header value is derived
from its argument. Each call resolves its maximum and its callback from the
argument slots.

One call is modelled as three atomic steps on an immutable registry value:

- `Receiver.Admit` sizes the chunk, creates or grows the record, and runs the
  size guard.
- `Receiver.Commit` runs after the temp-file write. It applies the stream size
  correction, stores the chunk path and the metadata, and tests completeness.
- `Receiver.Finalize` replies and cleans up.

`Receiver.Receive` chains the three. The temp-file write, the merge, the
x-data parser and the callback's settlement are not computed; each call
receives their results as an `Io` value. `Properties` runs sequences of calls
and proves what whole transfers do. `Scenarios` works through concrete
transfers.

Modules:

- `Wrappers`: `Option`.
- `JsValues`: the JavaScript semantics the handler relies on:
  - header truthiness and `||` defaults;
  - `parseInt(s, 10)`, with `None` for NaN;
  - `Buffer.byteLength` of a string, as a UTF-8 encoder.
- `Config`: argument resolution, the staging directory and the allow-origin
  value.
- `Registry`: the records and the two registry updates, with the completeness
  test.
- `Receiver`: one call.
- `Properties`: runs of calls.
- `Scenarios`: concrete runs.

Notes on the modelling:

- Chunk entries live in their own map instead of sitting among the record's
  properties. `Registry.PropertyCount` rebuilds the property count the source
  compares against `count + 4`, so the completeness test is modelled as
  written. `Registry.TransferComplete` proves it equal to "the count is known,
  nonzero, and equal to the number of distinct chunk indices".
- The count is `parseInt` of the filename chunk's own index, so a transfer
  completes only when the filename chunk's index equals the number of chunks.
  In practice chunks must be numbered from 1, with the filename on the last.
  Chunks numbered 0, 1, 2 with the filename on 2 never complete: the count is
  2 while three indices are stored, and every reply is `BUSY`
  (`Scenarios.ZeroBasedTransferStalls`).
- The stream correction is applied after the size guard and is not guarded
  itself. A stream chunk without a content-length can therefore carry a
  record past the maximum with a `BUSY` reply
  (`Scenarios.StreamCorrectionPassesMax`). The comment at
  lib/hapi-handler.js:206 shows the authors expected stream sizes to be
  unknown up front, so this is modelled as intended behaviour, not as a
  finding.

## Model

| member | source | states |
|---|---|---|
| JsValues.ParseIntDecimal | lib/hapi-handler.js:185 | `parseInt` of a canonical decimal spelling, followed by any non-digit text, returns that number (the round trip with `NatToDecimal`) |
| JsValues.ParseIntNegative | lib/hapi-handler.js:185 | `parseInt` of a minus sign and a decimal spelling returns the negated number |
| JsValues.ParseIntSkipsWhitespace | lib/hapi-handler.js:167 | leading JavaScript white space does not change what `parseInt` returns |
| JsValues.Utf8LengthIsEncodedLength | lib/hapi-handler.js:168-169 | the byte length counted per character equals the length of the UTF-8 encoding |
| JsValues.EncodeCharDecodes | lib/hapi-handler.js:168-169 | each character's bytes are well-formed UTF-8 by the byte table of section 4 of RFC 3629 (lead byte by length, restricted second byte, continuation bytes) and decode back to the character |
| JsValues.AsciiUtf8Length | lib/hapi-handler.js:169 | an ASCII string's byte length is its length |
| JsValues.Utf8LengthBounds | lib/hapi-handler.js:169 | a string's byte length is between its length and four times its length |
| Config.ResolveArgs | lib/hapi-handler.js:198-204 | a function in the size slot becomes the callback; a nonzero per-call maximum wins, then a nonzero factory maximum, then 100 MiB; the result is never 0 |
| Config.WithTrailingSlash | lib/hapi-handler.js:48 | the result ends in "/", extends the input by at most one character, and equals the input exactly when the input already ends in "/" |
| Config.WithTrailingSlashIdempotent | lib/hapi-handler.js:48 | normalising twice gives the same directory as normalising once |
| Config.ResolveTmpDir | lib/hapi-handler.js:42-48 | the staging directory is the first truthy of the argument, TMP and TEMP with a trailing slash added when missing, and "/tmp/" when all three are falsy |
| Config.ResolveTmpDirFixpoint | lib/hapi-handler.js:42-48 | passing a resolved staging directory back as the argument gives the same directory, whatever TMP and TEMP hold |
| Config.AllowOrigin | lib/hapi-handler.js:52-53 | within one factory instance (the latest created): `true` gives "*", a string gives itself, anything else gives ""; the result is non-empty exactly when the argument is `true` or a non-empty string |
| Registry.Put | lib/hapi-handler.js:188-196 | the stored record is found again, nothing but that transfer changes, and no empty client entry appears |
| Registry.RemoveTransfer | lib/hapi-handler.js:211-214 | the transfer is gone, nothing else changes, and the client entry survives exactly when the client has another transfer |
| Registry.TransferComplete | lib/hapi-handler.js:291-296 | the `count`-truthy, `count + 4` property test holds exactly when the metadata is known and its count equals the number of stored chunk indices, which is nonzero |
| Receiver.ChunkSize | lib/hapi-handler.js:161-170 | a buffer counts its length, a string the length of its UTF-8 encoding, a stream its content-length (0 without one), and anything else 0 |
| Receiver.Accumulate | lib/hapi-handler.js:188-196 | a new transfer starts at the chunk's size with no metadata and no chunks; an existing one grows by the chunk's size and keeps everything else |
| Receiver.Admit | lib/hapi-handler.js:161-223 | the guard trips exactly when the declared total or the grown size is over the maximum; then the record is purged, with the client entry when nothing else is left; otherwise the grown record stays within the maximum; other transfers are untouched |
| Receiver.ParseData | lib/hapi-handler.js:274-287 | present and parsable x-data is kept; absent, empty or unparsable x-data gives `{}` |
| Receiver.CommitRecord | lib/hapi-handler.js:248-288 | a stream admitted at size 0 adds what it drained; the chunk path is stored under its index, overwriting a re-sent one and keeping the other entries; only a filename chunk sets the count, filename and data, otherwise the metadata is unchanged |
| Receiver.Commit | lib/hapi-handler.js:263-288 | the commit fails exactly when the record is gone; otherwise the committed record replaces it and nothing else changes |
| Receiver.CallbackSettlement | lib/hapi-handler.js:309-317 | the callback is called, and its result (a value, a rejection or a synchronous throw) settles the call, only when a merged file and a callback exist; otherwise the awaited value is null |
| Receiver.Finalize | lib/hapi-handler.js:319-359 | the reply is OK for a merged transfer and BUSY otherwise, carrying the callback's data only when waiting for it; the record is removed exactly when a merged file exists and the callback fulfilled; when waiting, a rejection fails the call with no reply and no cleanup; a callback that throws fails the call with no reply and no cleanup, whether waiting or not |
| Receiver.Conclude | lib/hapi-handler.js:290-307 | an incomplete record is kept with a BUSY reply; OK or a removed file implies the record was complete and merged; a failed merge of a complete record fails the call with no reply and keeps the registry unchanged; a call that replies does not fail |
| Receiver.Store | lib/hapi-handler.js:225-263 | a failed write fails the call with no reply and leaves the registry, with the admitted record, unchanged; a call that replies does not fail; OK implies the write and the merge succeeded; a removed file is the merged one and its record is gone |
| Receiver.Receive | lib/hapi-handler.js:160-369 | the size error (403) is replied exactly when the guard trips, and then the call fails, no file is removed and the record is gone; a BUSY or OK reply means the call succeeds; when the guard passes and the write fails, the call fails with no reply and the record stays, grown by the chunk's size; only the request's own transfer changes; no empty client entry is left |
| Properties.StoreStep | lib/hapi-handler.js:263-307 | after a successful write the record is either the committed record or removed: kept with BUSY and a successful call when incomplete, removed with OK and a successful call and the merged file removed when complete and the merge and callback succeed; kept with no reply and a failed call when complete and the merge fails |
| Properties.AdmittedStep | lib/hapi-handler.js:188-307 | the same, for a whole call whose chunk passes the guard |
| Properties.ThrowingCallbackStoreStep | lib/hapi-handler.js:309-320 | after a successful write and merge of a complete transfer, a callback that throws leaves the committed record in place with no reply and a failed call |
| Properties.ThrowingCallbackKeepsRecord | lib/hapi-handler.js:309-320 | the same for a whole call whose chunk passes the guard and completes the transfer, whatever `waitForCb` is |
| Properties.RejectingCallbackStoreStep | lib/hapi-handler.js:319-340 | after a successful write and merge of a complete transfer, a callback that rejects leaves the committed record in place; waiting gives no reply and a failed call, not waiting gives OK and a successful call |
| Properties.RejectingCallbackKeepsRecord | lib/hapi-handler.js:319-368 | the same for a whole call whose chunk passes the guard and completes the transfer |
| Properties.ResentChunkOverwrites | lib/hapi-handler.js:265 | re-sending a stored index leaves the set of indices unchanged and points that index at the new path |
| Properties.NoFilenameStep | lib/hapi-handler.js:247-251 | a chunk without a filename, before the metadata is known and within the maximum, adds its size plus any stream correction, keeps the metadata unknown, and is answered BUSY |
| Properties.CommittedShape | lib/hapi-handler.js:265-296 | the committed record has one more index and the chunk's size added, has metadata once any filename chunk arrived, and is complete exactly when the metadata is known and this is the n-th chunk |
| Properties.CompletionStep | lib/hapi-handler.js:265-359 | a fresh chunk of an n-chunk transfer is answered OK and its record removed when the metadata is known and it is the n-th chunk; otherwise it is stored and answered BUSY |
| Properties.ReceiveAccumulates | lib/hapi-handler.js:188-251 | every handler call on a chunk without a filename accumulates as NoFilenameStep states |
| Properties.ReceiveCompletes | lib/hapi-handler.js:265-359 | every handler call on a chunk of a well-formed n-chunk transfer behaves as CompletionStep states |
| Properties.ReceiveConfined | lib/hapi-handler.js:188-214 | every handler call touches only the record of its own transfer and leaves no empty client entry |
| Properties.AccumulatedSize | lib/hapi-handler.js:188-196 | over any run of chunks without a filename that stays within the maximum, the accumulated size is the prior size plus every chunk's size, with streams counted by what they drained; the metadata stays unknown and every reply is BUSY |
| Properties.SurvivingStep | lib/hapi-handler.js:188-251 | whenever a chunk's record exists after the call, it grew by exactly the chunk's size plus any stream correction, with or without a filename |
| Properties.ReceiveGrows | lib/hapi-handler.js:188-251 | every handler call grows a surviving record as SurvivingStep states |
| Properties.SurvivingSize | lib/hapi-handler.js:188-251 | over any run of one transfer's chunks in which the record survives every call, the accumulated size is the prior size plus every chunk's size, streams counted by what they drained, whatever filenames or metadata the chunks carry |
| Properties.CompletesOnLastChunk | lib/hapi-handler.js:290-359 | n fresh, distinct chunks whose filename chunk's index parses to n complete in any arrival order: every earlier chunk gets BUSY, the last gets OK with the merged file removed, and the record is gone |
| Properties.RunOnlyTouches | lib/hapi-handler.js:188-196 | a run of one transfer's chunks leaves every other transfer unchanged, of the same client or another, including other clients' transfers with the same id |
| Properties.AdmitRejectionNoResidue | lib/hapi-handler.js:207-214 | when the guard trips on a transfer that had no record, the purge restores the registry exactly |
| Properties.RejectionLeavesNoResidue | lib/hapi-handler.js:207-223 | a chunk refused with the size error on a transfer that had no record leaves the registry exactly as it was |
| Properties.RestartAfterRejection | lib/hapi-handler.js:188-214 | after a refusal, the next admitted chunk of the same transfer starts a fresh record holding only its own size |
| Scenarios.OneBasedTransferCompletes | lib/hapi-handler.js:291-296 | chunks "1", "2", "3" with the filename on "3", into an empty registry, are answered BUSY, BUSY, then OK with the merged file removed, and the registry is empty again |
| Scenarios.ZeroBasedTransferStalls | lib/hapi-handler.js:268-296 | chunks "0", "1", "2" with the filename on "2" are all answered BUSY, and the record keeps three indices with count 2, incomplete |
| Scenarios.DeclaredTotalRefused | lib/hapi-handler.js:207-222 | a chunk declaring 2000 bytes against a maximum of 1000 is refused with the status "Error: max filesize exceeded", HTTP 403 and a failed call, and the registry is unchanged |
| Scenarios.StreamCorrectionPassesMax | lib/hapi-handler.js:247-251 | a stream without a content-length that drains 100 bytes against a maximum of 10 leaves a record of 100 bytes with a BUSY reply |

## Left out

- File I/O is taken as given results, not computed:
  - creating the staging directory and choosing unique temp-file names;
  - writing a chunk;
  - merging the chunks and removing files.
- Receiver.Finalize: removing the merged file always succeeds. In the waiting
  branch the source returns the removal's promise (lib/hapi-handler.js:358),
  so a failed removal fails the call through lines 365-368 after the OK reply
  was sent.
- The contents of the merged file are not modelled, only its path.
- `recieveFormFiles` (multipart uploads) is left out. It is a separate entry
  point that does not use the registry.
- `generateClientId` and `responseOptions` are left out. They only build
  replies from a generated id and the allow-origin value.
- Reply plumbing is left out:
  - setting headers, including the access-control-allow-origin header;
  - `request.params` merging;
  - logging.
- The `reply._replied` check is left out. The model assumes no earlier reply
  was sent.
- Date revival in the JSON reviver is left out. Parsing x-data is a
  parameter of each call.
- Calls are atomic. The source can interleave the asynchronous parts of
  several calls; the model processes each call to completion before the next.
  - Receiver.Commit: its failure on a vanished record cannot arise through
    `Receiver.Receive`, because Admit leaves the record in place.
  - With interleaving, the source's stream path updates a vanished record
    inside the stream's finish listener (lib/hapi-handler.js:249). The
    TypeError there escapes the promise chain, so the call never settles.
    The model does not represent a call that never settles.
- Config.AllowOrigin: whether the header is sent is not modelled. The
  upload replies and `generateClientId` send it only when the value is
  non-empty (lib/hapi-handler.js:58, 217, 321, 347). `responseOptions` always
  sends it, even when the value is "" (lib/hapi-handler.js:70).
- Config.AllowOrigin: the source keeps the header value in one module-level
  variable (lib/hapi-handler.js:4). Every factory call overwrites it
  (lib/hapi-handler.js:52-53), so all handler sets send the value of the
  latest factory call. The model gives each configuration its own value.
- Client and transfer ids never name a property inherited from
  `Object.prototype` (`constructor`, `__proto__`, `toString`, ...). The source
  keeps the registry and each client's entry in plain objects, where such ids
  resolve to inherited values.
  - `x-transid: constructor` makes the accumulated size NaN, so the
    accumulated-size test never trips. A declared total above the maximum
    still trips the guard (lib/hapi-handler.js:207); the delete at line 211
    then does nothing, and the client entry may be removed.
  - `x-clientid: __proto__` writes onto `Object.prototype`.
  - Receiver.Admit, Receiver.Receive and Properties.RunOnlyTouches hold only
    for ids outside these names.
- Record keys are kept apart. The source stores chunk paths as properties of
  the record object itself (lib/hapi-handler.js:265); the model keeps chunks
  in their own map. Colliding `x-partial` values are not modelled:
  - `cummulatedSize`, `count`, `filename` or `data` overwrite those fields;
  - `__proto__` goes to the prototype setter, which ignores a string, so the
    chunk is never stored or counted and the transfer cannot complete;
  - `itsa_size` shadows the method the completeness test calls
    (lib/hapi-handler.js:294). Every completeness test after the count is set
    throws a TypeError, and the call fails.
- Receiver.ChunkSize: a non-numeric content-length, which makes the source's
  size NaN, is not modelled. The content-length is a number or absent.
- Missing identifying headers are not distinguished from a client-sent
  string. The source turns them into the key "undefined".
- Number precision is not modelled. Sizes and parsed integers are unbounded;
  JavaScript numbers lose precision above 2^53.
- JsValues.Utf8LengthIsEncodedLength: strings are sequences of Unicode scalar
  values. Lone UTF-16 surrogates, which `Buffer.byteLength` counts as three
  bytes, cannot occur in the model.
- Temp files of an aborted or stalled transfer are not modelled. The source
  leaves them on disk.

=== FILE: config.dfy ===
/**
 The argument and configuration resolution done by the handler factory and
 at the top of each chunk call: the effective maximum transfer size (and the
 callback that may take its argument slot), the staging directory, and the
 cross-origin header value.
 */
module Config {
  import opened Wrappers
  import opened JsValues

  /** The built-in maximum transfer size: 100 MiB. */
  const DefaultMaxFileSize: int := 100 * 1024 * 1024

  /** A completion callback, identified by the function value passed in. */
  datatype Callback = Callback(name: string)

  /** What the caller passes in the `maxFileSize` argument slot. */
  datatype MaxArg =
    | MaxFunction(fn: Callback)  // the callback, passed one slot early
    | MaxNumber(n: int)
    | MaxAbsent                  // null, undefined or omitted

  /** A configured maximum is truthy when it is present and not 0. */
  predicate NonZero(m: Option<int>) {
    m.Some? && m.value != 0
  }

  datatype Resolved = Resolved(maxFileSize: int, callback: Option<Callback>)

  /**
   Resolve the per-call maximum size and callback: a function in the size slot
   becomes the callback; a falsy maximum falls back to the factory's maximum
   and then to the default.
   */
  function ResolveArgs(arg: MaxArg, callback: Option<Callback>, globalMax: Option<int>): (r: Resolved)
    ensures arg.MaxFunction? ==> r.callback == Some(arg.fn)
    ensures !arg.MaxFunction? ==> r.callback == callback
    ensures r.maxFileSize != 0
    ensures arg.MaxNumber? && arg.n != 0 ==> r.maxFileSize == arg.n
    ensures !(arg.MaxNumber? && arg.n != 0) && NonZero(globalMax) ==> r.maxFileSize == globalMax.value
    ensures !(arg.MaxNumber? && arg.n != 0) && !NonZero(globalMax) ==> r.maxFileSize == DefaultMaxFileSize
  {
    var slot := if arg.MaxFunction? then MaxAbsent else arg;
    var cb := if arg.MaxFunction? then Some(arg.fn) else callback;
    var max :=
      if slot.MaxNumber? && slot.n != 0 then slot.n
      else if NonZero(globalMax) then globalMax.value
      else DefaultMaxFileSize;
    Resolved(max, cb)
  }

  predicate EndsWithSlash(s: string) {
    |s| > 0 && s[|s| - 1] == '/'
  }

  /** Append "/" unless the directory already ends with one. */
  function WithTrailingSlash(dir: string): (r: string)
    ensures EndsWithSlash(r)
    ensures dir <= r && |r| <= |dir| + 1
    ensures EndsWithSlash(dir) <==> r == dir
  {
    if EndsWithSlash(dir) then dir else dir + "/"
  }

  lemma WithTrailingSlashIdempotent(dir: string)
    ensures WithTrailingSlash(WithTrailingSlash(dir)) == WithTrailingSlash(dir)
  {
  }

  /**
   The staging directory: the first truthy of the `tempdir` argument, the TMP
   and TEMP environment variables and "/tmp", with a trailing slash.
   */
  function ResolveTmpDir(tempdir: Option<string>, envTmp: Option<string>, envTemp: Option<string>): (r: string)
    ensures EndsWithSlash(r)
    ensures Truthy(tempdir) ==> r == WithTrailingSlash(tempdir.value)
    ensures !Truthy(tempdir) && Truthy(envTmp) ==> r == WithTrailingSlash(envTmp.value)
    ensures !Truthy(tempdir) && !Truthy(envTmp) && Truthy(envTemp) ==> r == WithTrailingSlash(envTemp.value)
    ensures !Truthy(tempdir) && !Truthy(envTmp) && !Truthy(envTemp) ==> r == "/tmp/"
  {
    WithTrailingSlash(OrDefault(tempdir, OrDefault(envTmp, OrDefault(envTemp, "/tmp"))))
  }

  /**
   A resolved staging directory passed back in as `tempdir` resolves to
   itself, whatever the environment says.
   */
  lemma ResolveTmpDirFixpoint(tempdir: Option<string>, envTmp: Option<string>, envTemp: Option<string>,
                              envTmp': Option<string>, envTemp': Option<string>)
    ensures var dir := ResolveTmpDir(tempdir, envTmp, envTemp);
            ResolveTmpDir(Some(dir), envTmp', envTemp') == dir
  {
    var dir := ResolveTmpDir(tempdir, envTmp, envTemp);
    assert Truthy(Some(dir));
    assert WithTrailingSlash(dir) == dir;
  }

  /** What the caller passes as `accessControlAllowOrigin`. */
  datatype OriginArg =
    | OriginTrue
    | OriginString(origin: string)
    | OriginOff  // false, null, undefined or omitted

  /**
   The value echoed in the access-control-allow-origin header: "*" for `true`,
   the given origin otherwise, "" when off. The value is non-empty exactly
   when the argument is `true` or a non-empty string.
   */
  function AllowOrigin(a: OriginArg): (r: string)
    ensures a.OriginTrue? ==> r == "*"
    ensures a.OriginString? ==> r == a.origin
    ensures a.OriginOff? ==> r == ""
    ensures r != "" <==> (a.OriginTrue? || (a.OriginString? && a.origin != ""))
  {
    match a
    case OriginTrue => "*"
    case OriginString(o) => OrDefault(Some(o), "")
    case OriginOff => ""
  }
}

=== FILE: js_values.dfy ===
/**
 This module gives the handful of JavaScript value semantics the upload
 handler depends on a precise meaning: the truthiness of an optional header
 string, `parseInt(s, 10)`, and `Buffer.byteLength` of a string (its UTF-8
 length).
 */
module JsValues {
  import opened Wrappers

  /** One byte of a Node.js `Buffer`. */
  newtype byte = x: int | 0 <= x < 0x100

  /** A header value is truthy when it is present and not the empty string. */
  predicate Truthy(h: Option<string>) {
    h.Some? && h.value != ""
  }

  /** JavaScript's `h || d` for an optional header string. */
  function OrDefault(h: Option<string>, d: string): string {
    if Truthy(h) then h.value else d
  }

  /** The white space and line terminators that `parseInt` skips before the digits. */
  predicate IsJsWhitespace(c: char) {
    || c == '\t' || c == '\n' || c == '\U{B}' || c == '\U{C}' || c == '\r' || c == ' '
    || c == '\U{A0}' || c == '\U{1680}' || ('\U{2000}' <= c <= '\U{200A}')
    || c == '\U{2028}' || c == '\U{2029}' || c == '\U{202F}' || c == '\U{205F}'
    || c == '\U{3000}' || c == '\U{FEFF}'
  }

  predicate IsDigit(c: char) {
    '0' <= c <= '9'
  }

  function DigitValue(c: char): (d: nat)
    requires IsDigit(c)
    ensures d < 10
  {
    c as int - '0' as int
  }

  function DigitChar(d: nat): (c: char)
    requires d < 10
    ensures IsDigit(c) && DigitValue(c) == d
  {
    ('0' as int + d) as char
  }

  /** Length of the longest prefix of `s` whose characters all satisfy `p`. */
  function CountWhile(s: string, p: char -> bool): (n: nat)
    ensures n <= |s|
    ensures forall i :: 0 <= i < n ==> p(s[i])
    ensures n < |s| ==> !p(s[n])
  {
    if |s| > 0 && p(s[0]) then 1 + CountWhile(s[1..], p) else 0
  }

  predicate AllDigits(d: string) {
    forall i :: 0 <= i < |d| ==> IsDigit(d[i])
  }

  /** The number a string of decimal digits denotes, most significant digit first. */
  function DigitsValue(d: string): nat
    requires AllDigits(d)
  {
    if d == [] then 0 else DigitsValue(d[..|d| - 1]) * 10 + DigitValue(d[|d| - 1])
  }

  /**
   `parseInt(s, 10)`: skip leading white space, take an optional sign, then
   the longest run of decimal digits; `None` stands for NaN (no digit there).
   Anything after the digits is ignored.
   */
  function ParseInt(s: string): Option<int> {
    ParseSigned(s[CountWhile(s, IsJsWhitespace)..])
  }

  /** `parseInt` after the leading white space: an optional sign, then the longest digit prefix. */
  function ParseSigned(body: string): Option<int> {
    var negative := |body| > 0 && body[0] == '-';
    var unsigned := if |body| > 0 && (body[0] == '-' || body[0] == '+') then body[1..] else body;
    var k := CountWhile(unsigned, IsDigit);
    if k == 0 then None
    else
      var v: int := DigitsValue(unsigned[..k]);
      Some(if negative then -v else v)
  }

  /** The canonical decimal spelling of a natural number. */
  function NatToDecimal(n: nat): (s: string)
    ensures |s| > 0 && AllDigits(s)
    ensures |s| > 1 ==> s[0] != '0'
  {
    if n < 10 then [DigitChar(n)] else NatToDecimal(n / 10) + [DigitChar(n % 10)]
  }

  lemma {:induction false} DigitsValueOfDecimal(n: nat)
    ensures DigitsValue(NatToDecimal(n)) == n
  {
    if n >= 10 {
      var s := NatToDecimal(n / 10);
      var t := s + [DigitChar(n % 10)];
      assert t[..|t| - 1] == s;
      DigitsValueOfDecimal(n / 10);
    }
  }

  /** A prefix whose characters all satisfy `p` is counted in full. */
  lemma {:induction false} CountWhileAppend(a: string, b: string, p: char -> bool)
    requires forall i :: 0 <= i < |a| ==> p(a[i])
    ensures CountWhile(a + b, p) == |a| + CountWhile(b, p)
  {
    if |a| > 0 {
      assert (a + b)[1..] == a[1..] + b;
      CountWhileAppend(a[1..], b, p);
    } else {
      assert a + b == b;
    }
  }

  /**
   `parseInt` reads back the decimal spelling of any natural number, whatever
   non-digit text follows it.
   */
  lemma ParseIntDecimal(n: nat, rest: string)
    requires rest == [] || !IsDigit(rest[0])
    ensures ParseInt(NatToDecimal(n) + rest) == Some(n)
  {
    var d := NatToDecimal(n);
    var s := d + rest;
    assert s[0] == d[0];
    assert CountWhile(s, IsJsWhitespace) == 0;
    CountWhileAppend(d, rest, IsDigit);
    assert CountWhile(rest, IsDigit) == 0;
    assert s[..|d|] == d;
    DigitsValueOfDecimal(n);
  }

  /** A leading minus sign negates the value. */
  lemma ParseIntNegative(n: nat)
    ensures ParseInt("-" + NatToDecimal(n)) == Some(-(n as int))
  {
    var d := NatToDecimal(n);
    var s := "-" + d;
    assert CountWhile(s, IsJsWhitespace) == 0;
    assert s[1..] == d;
    CountWhileAppend(d, [], IsDigit);
    assert d + [] == d;
    assert d[..|d|] == d;
    DigitsValueOfDecimal(n);
  }

  /** Leading white space never changes what `parseInt` returns. */
  lemma ParseIntSkipsWhitespace(ws: string, s: string)
    requires forall i :: 0 <= i < |ws| ==> IsJsWhitespace(ws[i])
    ensures ParseInt(ws + s) == ParseInt(s)
  {
    CountWhileAppend(ws, s, IsJsWhitespace);
    assert (ws + s)[|ws| + CountWhile(s, IsJsWhitespace)..] == s[CountWhile(s, IsJsWhitespace)..];
  }

  /** Number of bytes UTF-8 spends on one character. */
  function Utf8Width(c: char): nat {
    var v := c as int;
    if v < 0x80 then 1 else if v < 0x800 then 2 else if v < 0x1_0000 then 3 else 4
  }

  /** `Buffer.byteLength(s)`: the summed UTF-8 widths of the characters of `s`. */
  function Utf8Length(s: string): nat {
    if s == [] then 0 else Utf8Width(s[0]) + Utf8Length(s[1..])
  }

  /** The UTF-8 encoding of one Unicode scalar value. */
  function EncodeChar(c: char): (b: seq<byte>)
    ensures 1 <= |b| <= 4
  {
    var v := c as int;
    if v < 0x80 then
      [v as byte]
    else if v < 0x800 then
      [(0xC0 + v / 0x40) as byte, (0x80 + v % 0x40) as byte]
    else if v < 0x1_0000 then
      [(0xE0 + v / 0x1000) as byte, (0x80 + v / 0x40 % 0x40) as byte, (0x80 + v % 0x40) as byte]
    else
      [(0xF0 + v / 0x4_0000) as byte, (0x80 + v / 0x1000 % 0x40) as byte,
       (0x80 + v / 0x40 % 0x40) as byte, (0x80 + v % 0x40) as byte]
  }

  /** A UTF-8 continuation byte, 0x80 to 0xBF. */
  predicate IsTail(x: byte) {
    0x80 <= x as int <= 0xBF
  }

  /**
   One character's bytes as the UTF-8 syntax of section 4 of RFC 3629 allows
   them: the lead byte fixes the length, the second byte's range depends on
   the lead (no overlong forms, no surrogates, nothing above U+10FFFF), and
   the remaining bytes are continuation bytes.
   */
  predicate Utf8Char(b: seq<byte>) {
    match |b|
    case 1 => b[0] as int <= 0x7F
    case 2 => 0xC2 <= b[0] as int <= 0xDF && IsTail(b[1])
    case 3 =>
      && (|| (b[0] as int == 0xE0 && 0xA0 <= b[1] as int <= 0xBF)
          || ((0xE1 <= b[0] as int <= 0xEC || 0xEE <= b[0] as int <= 0xEF) && IsTail(b[1]))
          || (b[0] as int == 0xED && 0x80 <= b[1] as int <= 0x9F))
      && IsTail(b[2])
    case 4 =>
      && (|| (b[0] as int == 0xF0 && 0x90 <= b[1] as int <= 0xBF)
          || (0xF1 <= b[0] as int <= 0xF3 && IsTail(b[1]))
          || (b[0] as int == 0xF4 && 0x80 <= b[1] as int <= 0x8F))
      && IsTail(b[2]) && IsTail(b[3])
    case _ => false
  }

  /** The code point a one-character UTF-8 sequence denotes. */
  function DecodeChar(b: seq<byte>): int
    requires Utf8Char(b)
  {
    if |b| == 1 then b[0] as int
    else if |b| == 2 then (b[0] as int - 0xC0) * 0x40 + (b[1] as int - 0x80)
    else if |b| == 3 then (b[0] as int - 0xE0) * 0x1000 + (b[1] as int - 0x80) * 0x40 + (b[2] as int - 0x80)
    else (b[0] as int - 0xF0) * 0x4_0000 + (b[1] as int - 0x80) * 0x1000 + (b[2] as int - 0x80) * 0x40
         + (b[3] as int - 0x80)
  }

  /** The six-bit groups of a number from U+0800 to U+FFFF outside the surrogates. */
  lemma ThreeDigits(v: int)
    requires 0x800 <= v < 0x1_0000 && !(0xD800 <= v < 0xE000)
    ensures var a, m, r := v / 0x1000, v / 0x40 % 0x40, v % 0x40;
            && a * 0x1000 + m * 0x40 + r == v && 0 <= m < 0x40 && 0 <= r < 0x40 && 0 <= a < 0x10
            && (a == 0 ==> 0x20 <= m) && (a == 0xD ==> m < 0x20)
  {
    var q := v / 0x40;
    assert v == q * 0x40 + v % 0x40;
    assert q == q / 0x40 * 0x40 + q % 0x40;
    assert v / 0x1000 == q / 0x40;
  }

  /** The six-bit groups of a number from U+10000 to U+10FFFF. */
  lemma FourDigits(v: int)
    requires 0x1_0000 <= v < 0x11_0000
    ensures var a, m, n, r := v / 0x4_0000, v / 0x1000 % 0x40, v / 0x40 % 0x40, v % 0x40;
            && a * 0x4_0000 + m * 0x1000 + n * 0x40 + r == v
            && 0 <= m < 0x40 && 0 <= n < 0x40 && 0 <= r < 0x40 && 0 <= a <= 4
            && (a == 0 ==> 0x10 <= m) && (a == 4 ==> m < 0x10)
  {
    var q := v / 0x40;
    var p := q / 0x40;
    assert v == q * 0x40 + v % 0x40;
    assert q == p * 0x40 + q % 0x40;
    assert p == p / 0x40 * 0x40 + p % 0x40;
    assert v / 0x1000 == p;
    assert v / 0x4_0000 == p / 0x40;
  }

  /** Two bytes with the values the encoder writes form one character that decodes to `v`. */
  lemma TwoByteChar(b: seq<byte>, v: int)
    requires 0x80 <= v < 0x800
    requires |b| == 2 && b[0] as int == 0xC0 + v / 0x40 && b[1] as int == 0x80 + v % 0x40
    ensures Utf8Char(b) && DecodeChar(b) == v
  {
  }

  /** Three bytes with the values the encoder writes form one character that decodes to `v`. */
  lemma ThreeByteChar(b: seq<byte>, v: int)
    requires 0x800 <= v < 0x1_0000 && !(0xD800 <= v < 0xE000)
    requires && |b| == 3 && b[0] as int == 0xE0 + v / 0x1000 && b[1] as int == 0x80 + v / 0x40 % 0x40
             && b[2] as int == 0x80 + v % 0x40
    ensures Utf8Char(b) && DecodeChar(b) == v
  {
    ThreeDigits(v);
  }

  /** Four bytes with the values the encoder writes form one character that decodes to `v`. */
  lemma FourByteChar(b: seq<byte>, v: int)
    requires 0x1_0000 <= v < 0x11_0000
    requires && |b| == 4 && b[0] as int == 0xF0 + v / 0x4_0000 && b[1] as int == 0x80 + v / 0x1000 % 0x40
             && b[2] as int == 0x80 + v / 0x40 % 0x40 && b[3] as int == 0x80 + v % 0x40
    ensures Utf8Char(b) && DecodeChar(b) == v
  {
    FourDigits(v);
  }

  /** The encoder writes well-formed UTF-8 that decodes back to the character. */
  lemma EncodeCharDecodes(c: char)
    ensures Utf8Char(EncodeChar(c)) && DecodeChar(EncodeChar(c)) == c as int
  {
    var v := c as int;
    if v < 0x80 {
    } else if v < 0x800 {
      TwoByteChar(EncodeChar(c), v);
    } else if v < 0x1_0000 {
      ThreeByteChar(EncodeChar(c), v);
    } else {
      FourByteChar(EncodeChar(c), v);
    }
  }

  /** The UTF-8 encoding of a string: the bytes `Buffer.from(s)` would hold. */
  function Utf8Encode(s: string): seq<byte> {
    if s == [] then [] else EncodeChar(s[0]) + Utf8Encode(s[1..])
  }

  /** The width table agrees with the encoder, character by character and so for whole strings. */
  lemma {:induction false} Utf8LengthIsEncodedLength(s: string)
    ensures Utf8Length(s) == |Utf8Encode(s)|
  {
    if s != [] {
      Utf8LengthIsEncodedLength(s[1..]);
    }
  }

  /** For ASCII text the byte length is the character count. */
  lemma {:induction false} AsciiUtf8Length(s: string)
    requires forall i :: 0 <= i < |s| ==> s[i] as int < 0x80
    ensures Utf8Length(s) == |s|
  {
    if s != [] {
      AsciiUtf8Length(s[1..]);
    }
  }

  /** The byte length is at least the character count and at most four times it. */
  lemma {:induction false} Utf8LengthBounds(s: string)
    ensures |s| <= Utf8Length(s) <= 4 * |s|
  {
    if s != [] {
      Utf8LengthBounds(s[1..]);
    }
  }
}

=== FILE: properties.dfy ===
/**
 Properties of runs of chunks through the handler: size accounting across
 chunks, the abort-and-purge guard, completion on exactly the last chunk, and
 isolation between transfers. The run lemmas are proved for any step function
 that behaves like one handler call on the cases they need, and then
 instantiated with the handler itself.
 */
module Properties {
  import opened Wrappers
  import opened JsValues
  import opened Config
  import opened Registry
  import opened Receiver

  /** One chunk request together with the results of the I/O its call performs. */
  datatype Delivery = Delivery(req: Request, io: Io)

  /** A registry transition for one delivery. */
  type Stepper = (Registry, Delivery) -> (Registry, Outcome)

  /** One handler call per delivery, with fixed call arguments. */
  function ReceiveStep(call: Call, globalMax: Option<int>): Stepper {
    (reg: Registry, d: Delivery) => Receive(reg, d.req, call, globalMax, d.io)
  }

  /** Apply `step` to the deliveries one after another, collecting the outcomes. */
  function RunWith(reg: Registry, ds: seq<Delivery>, step: Stepper): (r: (Registry, seq<Outcome>))
    ensures |r.1| == |ds|
    decreases |ds|
  {
    if ds == [] then (reg, [])
    else
      var first := step(reg, ds[0]);
      var rest := RunWith(first.0, ds[1..], step);
      (rest.0, [first.1] + rest.1)
  }

  /** Process the deliveries one after another, each call running to completion. */
  function Run(reg: Registry, ds: seq<Delivery>, call: Call, globalMax: Option<int>): (r: (Registry, seq<Outcome>))
    ensures |r.1| == |ds|
  {
    RunWith(reg, ds, ReceiveStep(call, globalMax))
  }

  /** The bytes a delivery adds to its record: its admitted size plus the stream correction. */
  function EffectiveSize(d: Delivery): nat {
    var size := ChunkSize(d.req.payload);
    size + (if d.io.write.WriteOk? then Correction(d.req.payload, size, d.io.write.drained) else 0)
  }

  function TotalSize(ds: seq<Delivery>): nat {
    if ds == [] then 0 else EffectiveSize(ds[0]) + TotalSize(ds[1..])
  }

  predicate SameTransfer(ds: seq<Delivery>, c: ClientId, t: TransId) {
    forall i :: 0 <= i < |ds| ==> ds[i].req.clientId == c && ds[i].req.transId == t
  }

  /** No delivery declares a total size above `max`. */
  predicate DeclaredWithin(ds: seq<Delivery>, max: int) {
    forall i :: 0 <= i < |ds| ==> DeclaredTotal(ds[i].req).None? || DeclaredTotal(ds[i].req).value <= max
  }

  function ChunkKeys(reg: Registry, c: ClientId, t: TransId): set<ChunkId> {
    match Lookup(reg, c, t)
    case Some(rec) => rec.chunks.Keys
    case None => {}
  }

  function MetaOf(reg: Registry, c: ClientId, t: TransId): Option<Meta> {
    match Lookup(reg, c, t)
    case Some(rec) => rec.meta
    case None => None
  }

  /**
   The write-and-commit half of a call on an admitted record: an incomplete
   committed record stays with a BUSY reply, a complete one whose merge and
   callback succeed is removed with an OK reply.
   */
  lemma StoreStep(admitted: Registry, req: Request, size: nat, hasCallback: bool, io: Io, waitForCb: bool)
    requires io.write.WriteOk? && Lookup(admitted, req.clientId, req.transId).Some?
    ensures var c, t := req.clientId, req.transId;
            var rec := CommitRecord(Lookup(admitted, c, t).value, req, size, io.write.path, io.write.drained, io.parse);
            var after := Store(admitted, req, size, hasCallback, io, waitForCb);
            && (Lookup(after.0, c, t) == Some(rec) || Lookup(after.0, c, t) == None)
            && (!TransferComplete(rec) ==>
                  Lookup(after.0, c, t) == Some(rec) && after.1.reply == Some(Reply(Busy, None)) && !after.1.failed)
            && (TransferComplete(rec) && io.merge.Merged? && io.settle.Fulfilled? ==>
                  && Lookup(after.0, c, t) == None
                  && after.1.reply.Some? && after.1.reply.value.status == Ok && !after.1.failed
                  && after.1.removedFile == Some(io.merge.artifact.path))
            && (TransferComplete(rec) && io.merge.MergeFailed? ==>
                  Lookup(after.0, c, t) == Some(rec) && after.1 == Outcome(None, true, None))
  {
  }

  /**
   One admitted chunk whose write succeeds: its record becomes the committed
   record; an incomplete record stays with a BUSY reply, a complete one whose
   merge and callback succeed is removed with an OK reply.
   */
  lemma AdmittedStep(reg: Registry, d: Delivery, call: Call, globalMax: Option<int>)
    requires !ExceedsMax(DeclaredTotal(d.req), PriorSize(reg, d.req.clientId, d.req.transId) + ChunkSize(d.req.payload),
                         CallMax(call, globalMax))
    requires d.io.write.WriteOk?
    ensures var c, t := d.req.clientId, d.req.transId;
            var size := ChunkSize(d.req.payload);
            var rec := CommitRecord(Accumulate(Lookup(reg, c, t), size), d.req, size,
                                    d.io.write.path, d.io.write.drained, d.io.parse);
            var after := Receive(reg, d.req, call, globalMax, d.io);
            && (Lookup(after.0, c, t) == Some(rec) || Lookup(after.0, c, t) == None)
            && (!TransferComplete(rec) ==>
                  Lookup(after.0, c, t) == Some(rec) && after.1.reply == Some(Reply(Busy, None)) && !after.1.failed)
            && (TransferComplete(rec) && d.io.merge.Merged? && d.io.settle.Fulfilled? ==>
                  && Lookup(after.0, c, t) == None
                  && after.1.reply.Some? && after.1.reply.value.status == Ok && !after.1.failed
                  && after.1.removedFile == Some(d.io.merge.artifact.path))
            && (TransferComplete(rec) && d.io.merge.MergeFailed? ==>
                  Lookup(after.0, c, t) == Some(rec) && after.1 == Outcome(None, true, None))
  {
    var args := ResolveArgs(call.maxFileSize, call.callback, globalMax);
    var admit := Admit(reg, d.req, args.maxFileSize);
    assert admit.1 == Admitted(ChunkSize(d.req.payload));
    StoreStep(admit.0, d.req, ChunkSize(d.req.payload), args.callback.Some?, d.io, call.waitForCb);
  }

  /**
   The write-and-commit half of a call that completes a transfer whose
   callback throws while being called: no reply, the call fails and the
   committed record stays, whether or not the caller waits for the callback.
   */
  lemma ThrowingCallbackStoreStep(admitted: Registry, req: Request, size: nat, io: Io, waitForCb: bool)
    requires io.write.WriteOk? && io.merge.Merged? && io.settle.Threw?
    requires Lookup(admitted, req.clientId, req.transId).Some?
    ensures var c, t := req.clientId, req.transId;
            var rec := CommitRecord(Lookup(admitted, c, t).value, req, size, io.write.path, io.write.drained, io.parse);
            var after := Store(admitted, req, size, true, io, waitForCb);
            TransferComplete(rec) ==> Lookup(after.0, c, t) == Some(rec) && after.1 == Outcome(None, true, None)
  {
  }

  /**
   A chunk that completes its transfer, with a callback that throws while
   being called: the call fails without any reply and the record stays with
   all its chunks, whatever `waitForCb` is.
   */
  lemma ThrowingCallbackKeepsRecord(reg: Registry, d: Delivery, call: Call, globalMax: Option<int>)
    requires !ExceedsMax(DeclaredTotal(d.req), PriorSize(reg, d.req.clientId, d.req.transId) + ChunkSize(d.req.payload),
                         CallMax(call, globalMax))
    requires d.io.write.WriteOk? && d.io.merge.Merged? && d.io.settle.Threw?
    requires ResolveArgs(call.maxFileSize, call.callback, globalMax).callback.Some?
    ensures var c, t := d.req.clientId, d.req.transId;
            var size := ChunkSize(d.req.payload);
            var rec := CommitRecord(Accumulate(Lookup(reg, c, t), size), d.req, size,
                                    d.io.write.path, d.io.write.drained, d.io.parse);
            var after := Receive(reg, d.req, call, globalMax, d.io);
            TransferComplete(rec) ==> Lookup(after.0, c, t) == Some(rec) && after.1 == Outcome(None, true, None)
  {
    var args := ResolveArgs(call.maxFileSize, call.callback, globalMax);
    var admit := Admit(reg, d.req, args.maxFileSize);
    assert admit.1 == Admitted(ChunkSize(d.req.payload));
    ThrowingCallbackStoreStep(admit.0, d.req, ChunkSize(d.req.payload), d.io, call.waitForCb);
  }

  /**
   The write-and-commit half of a call that completes a transfer whose
   callback rejects: the committed record stays in both cases. A caller that
   waits gets no reply and a failed call. A caller that does not wait was
   already answered OK, and the call succeeds.
   */
  lemma RejectingCallbackStoreStep(admitted: Registry, req: Request, size: nat, io: Io, waitForCb: bool)
    requires io.write.WriteOk? && io.merge.Merged? && io.settle.Rejected?
    requires Lookup(admitted, req.clientId, req.transId).Some?
    ensures var c, t := req.clientId, req.transId;
            var rec := CommitRecord(Lookup(admitted, c, t).value, req, size, io.write.path, io.write.drained, io.parse);
            var after := Store(admitted, req, size, true, io, waitForCb);
            TransferComplete(rec) ==>
              && Lookup(after.0, c, t) == Some(rec)
              && (waitForCb ==> after.1 == Outcome(None, true, None))
              && (!waitForCb ==> after.1 == Outcome(Some(Reply(Ok, None)), false, None))
  {
  }

  /**
   A chunk that completes its transfer, with a callback that rejects: the
   record stays with all its chunks. Waiting for the callback turns the
   rejection into a failed call without a reply; not waiting sends OK and
   only logs the rejection.
   */
  lemma RejectingCallbackKeepsRecord(reg: Registry, d: Delivery, call: Call, globalMax: Option<int>)
    requires !ExceedsMax(DeclaredTotal(d.req), PriorSize(reg, d.req.clientId, d.req.transId) + ChunkSize(d.req.payload),
                         CallMax(call, globalMax))
    requires d.io.write.WriteOk? && d.io.merge.Merged? && d.io.settle.Rejected?
    requires ResolveArgs(call.maxFileSize, call.callback, globalMax).callback.Some?
    ensures var c, t := d.req.clientId, d.req.transId;
            var size := ChunkSize(d.req.payload);
            var rec := CommitRecord(Accumulate(Lookup(reg, c, t), size), d.req, size,
                                    d.io.write.path, d.io.write.drained, d.io.parse);
            var after := Receive(reg, d.req, call, globalMax, d.io);
            TransferComplete(rec) ==>
              && Lookup(after.0, c, t) == Some(rec)
              && (call.waitForCb ==> after.1 == Outcome(None, true, None))
              && (!call.waitForCb ==> after.1 == Outcome(Some(Reply(Ok, None)), false, None))
  {
    var args := ResolveArgs(call.maxFileSize, call.callback, globalMax);
    var admit := Admit(reg, d.req, args.maxFileSize);
    assert admit.1 == Admitted(ChunkSize(d.req.payload));
    RejectingCallbackStoreStep(admit.0, d.req, ChunkSize(d.req.payload), d.io, call.waitForCb);
  }

  /**
   A chunk index sent again replaces the stored path of that index: the set
   of indices, and so the progress towards completion, does not change.
   */
  lemma ResentChunkOverwrites(reg: Registry, d: Delivery, call: Call, globalMax: Option<int>)
    requires !ExceedsMax(DeclaredTotal(d.req), PriorSize(reg, d.req.clientId, d.req.transId) + ChunkSize(d.req.payload),
                         CallMax(call, globalMax))
    requires d.io.write.WriteOk?
    requires d.req.partial in ChunkKeys(reg, d.req.clientId, d.req.transId)
    ensures var c, t := d.req.clientId, d.req.transId;
            var after := Receive(reg, d.req, call, globalMax, d.io);
            Lookup(after.0, c, t).Some? ==>
              && ChunkKeys(after.0, c, t) == ChunkKeys(reg, c, t)
              && Lookup(after.0, c, t).value.chunks[d.req.partial] == d.io.write.path
  {
    AdmittedStep(reg, d, call, globalMax);
  }

  /** The chunk carries no filename, the transfer has no metadata yet, and the guard does not trip. */
  predicate NoFilenameCase(reg: Registry, d: Delivery, max: int) {
    && !Truthy(d.req.filename)
    && MetaOf(reg, d.req.clientId, d.req.transId).None?
    && !ExceedsMax(DeclaredTotal(d.req), PriorSize(reg, d.req.clientId, d.req.transId) + ChunkSize(d.req.payload), max)
  }

  /** The chunk's size is added, the metadata stays unknown, and the reply (if any) is BUSY. */
  predicate NoFilenameOutcome(reg: Registry, d: Delivery, after: (Registry, Outcome)) {
    var c, t := d.req.clientId, d.req.transId;
    && PriorSize(after.0, c, t) == PriorSize(reg, c, t) + EffectiveSize(d)
    && MetaOf(after.0, c, t).None?
    && Lookup(after.0, c, t).Some?
    && (d.io.write.WriteOk? ==> after.1.reply == Some(Reply(Busy, None)))
    && (after.1.reply.Some? ==> after.1.reply.value.status == Busy)
  }

  /** One chunk of a transfer whose metadata is unknown and which carries no filename, within the maximum. */
  lemma NoFilenameStep(reg: Registry, d: Delivery, call: Call, globalMax: Option<int>)
    requires NoFilenameCase(reg, d, CallMax(call, globalMax))
    ensures NoFilenameOutcome(reg, d, Receive(reg, d.req, call, globalMax, d.io))
  {
    if d.io.write.WriteOk? {
      AdmittedStep(reg, d, call, globalMax);
    } else {
      var args := ResolveArgs(call.maxFileSize, call.callback, globalMax);
      var (admitted, admission) := Admit(reg, d.req, args.maxFileSize);
      assert admission.Admitted?;
      assert Receive(reg, d.req, call, globalMax, d.io) == (admitted, Outcome(None, true, None));
    }
  }

  /**
   The chunk is new to its transfer, its index parses to `n` if it carries the
   filename, any known count is `n`, all its I/O succeeds, and the guard does
   not trip.
   */
  predicate CompletionCase(reg: Registry, d: Delivery, max: int, n: nat) {
    && CompletionIo(reg, d, n)
    && !ExceedsMax(DeclaredTotal(d.req), PriorSize(reg, d.req.clientId, d.req.transId) + ChunkSize(d.req.payload), max)
  }

  /** The completion hypotheses apart from the size guard. */
  predicate CompletionIo(reg: Registry, d: Delivery, n: nat) {
    var c, t := d.req.clientId, d.req.transId;
    && d.req.partial !in ChunkKeys(reg, c, t)
    && (Truthy(d.req.filename) ==> ParseInt(d.req.partial) == Some(n))
    && (MetaOf(reg, c, t).Some? ==> MetaOf(reg, c, t).value.count == Some(n))
    && d.io.write.WriteOk? && d.io.merge.Merged? && d.io.settle.Fulfilled?
  }

  /**
   With the metadata known and this the `n`-th chunk, the record is removed
   with an OK reply; otherwise the chunk is stored and answered BUSY.
   */
  predicate CompletionOutcome(reg: Registry, d: Delivery, n: nat, after: (Registry, Outcome)) {
    var c, t := d.req.clientId, d.req.transId;
    var known := Truthy(d.req.filename) || MetaOf(reg, c, t).Some?;
    var last := known && |ChunkKeys(reg, c, t)| + 1 == n;
    && (last ==> && Lookup(after.0, c, t) == None
                 && after.1.reply.Some? && after.1.reply.value.status == Ok
                 && d.io.merge.Merged? && after.1.removedFile == Some(d.io.merge.artifact.path))
    && (!last ==> && ChunkKeys(after.0, c, t) == ChunkKeys(reg, c, t) + {d.req.partial}
                  && (MetaOf(after.0, c, t).Some? <==> known)
                  && (MetaOf(after.0, c, t).Some? ==> MetaOf(after.0, c, t).value.count == Some(n))
                  && PriorSize(after.0, c, t) == PriorSize(reg, c, t) + EffectiveSize(d)
                  && after.1.reply == Some(Reply(Busy, None)))
  }

  /**
   The record a completion case commits: one more chunk, its size added, the
   metadata known if it was or this chunk brings the filename, and complete
   exactly when the metadata is known and this is the `n`-th chunk.
   */
  lemma CommittedShape(reg: Registry, d: Delivery, n: nat, rec: Record)
    requires CompletionIo(reg, d, n)
    requires rec == CommitRecord(Accumulate(Lookup(reg, d.req.clientId, d.req.transId), ChunkSize(d.req.payload)),
                                 d.req, ChunkSize(d.req.payload), d.io.write.path, d.io.write.drained, d.io.parse)
    ensures var c, t := d.req.clientId, d.req.transId;
            var known := Truthy(d.req.filename) || MetaOf(reg, c, t).Some?;
            && rec.chunks.Keys == ChunkKeys(reg, c, t) + {d.req.partial}
            && (rec.meta.Some? <==> known)
            && (rec.meta.Some? ==> rec.meta.value.count == Some(n))
            && rec.cumulated == PriorSize(reg, c, t) + EffectiveSize(d)
            && (TransferComplete(rec) <==> known && |ChunkKeys(reg, c, t)| + 1 == n)
  {
    var c, t := d.req.clientId, d.req.transId;
    assert rec.chunks.Keys == ChunkKeys(reg, c, t) + {d.req.partial};
    assert |rec.chunks| == |ChunkKeys(reg, c, t)| + 1;
  }

  /** What the step does follows from whether the committed record is complete. */
  lemma CompletionFromCommit(reg: Registry, d: Delivery, n: nat, rec: Record, after: (Registry, Outcome))
    requires var c, t := d.req.clientId, d.req.transId;
             var known := Truthy(d.req.filename) || MetaOf(reg, c, t).Some?;
             && d.io.merge.Merged?
             && rec.chunks.Keys == ChunkKeys(reg, c, t) + {d.req.partial}
             && (rec.meta.Some? <==> known)
             && (rec.meta.Some? ==> rec.meta.value.count == Some(n))
             && rec.cumulated == PriorSize(reg, c, t) + EffectiveSize(d)
             && (TransferComplete(rec) <==> known && |ChunkKeys(reg, c, t)| + 1 == n)
    requires !TransferComplete(rec) ==>
               Lookup(after.0, d.req.clientId, d.req.transId) == Some(rec) && after.1.reply == Some(Reply(Busy, None))
    requires TransferComplete(rec) ==>
               && Lookup(after.0, d.req.clientId, d.req.transId) == None
               && after.1.reply.Some? && after.1.reply.value.status == Ok
               && after.1.removedFile == Some(d.io.merge.artifact.path)
    ensures CompletionOutcome(reg, d, n, after)
  {
  }

  /** One chunk of a transfer of `n` chunks whose filename-bearing chunk has an index parsing to `n`. */
  lemma CompletionStep(reg: Registry, d: Delivery, call: Call, globalMax: Option<int>, n: nat)
    requires CompletionCase(reg, d, CallMax(call, globalMax), n)
    ensures CompletionOutcome(reg, d, n, Receive(reg, d.req, call, globalMax, d.io))
  {
    var size := ChunkSize(d.req.payload);
    var rec := CommitRecord(Accumulate(Lookup(reg, d.req.clientId, d.req.transId), size), d.req, size,
                            d.io.write.path, d.io.write.drained, d.io.parse);
    AdmittedStep(reg, d, call, globalMax);
    CommittedShape(reg, d, n, rec);
    CompletionFromCommit(reg, d, n, rec, Receive(reg, d.req, call, globalMax, d.io));
  }

  /** `step` behaves like a handler call on every chunk without a filename. */
  ghost predicate AccumulatesLikeReceive(step: Stepper, max: int) {
    forall reg: Registry, d: Delivery {:trigger NoFilenameCase(reg, d, max)} ::
      NoFilenameCase(reg, d, max) ==> NoFilenameOutcome(reg, d, step(reg, d))
  }

  /** `step` behaves like a handler call on every chunk of a well-formed `n`-chunk transfer. */
  ghost predicate CompletesLikeReceive(step: Stepper, max: int, n: nat) {
    forall reg: Registry, d: Delivery {:trigger CompletionCase(reg, d, max, n)} ::
      CompletionCase(reg, d, max, n) ==> CompletionOutcome(reg, d, n, step(reg, d))
  }

  /** `step` touches only the record of the delivery's own transfer and keeps client entries non-empty. */
  ghost predicate ConfinedLikeReceive(step: Stepper) {
    forall reg: Registry, d: Delivery ::
      && OnlyTouches(reg, step(reg, d).0, d.req.clientId, d.req.transId)
      && (NoEmptyClients(reg) ==> NoEmptyClients(step(reg, d).0))
  }

  lemma ReceiveAccumulates(call: Call, globalMax: Option<int>)
    ensures AccumulatesLikeReceive(ReceiveStep(call, globalMax), CallMax(call, globalMax))
  {
    forall reg: Registry, d: Delivery | NoFilenameCase(reg, d, CallMax(call, globalMax))
      ensures NoFilenameOutcome(reg, d, ReceiveStep(call, globalMax)(reg, d))
    {
      NoFilenameStep(reg, d, call, globalMax);
    }
  }

  lemma ReceiveCompletes(call: Call, globalMax: Option<int>, n: nat)
    ensures CompletesLikeReceive(ReceiveStep(call, globalMax), CallMax(call, globalMax), n)
  {
    forall reg: Registry, d: Delivery | CompletionCase(reg, d, CallMax(call, globalMax), n)
      ensures CompletionOutcome(reg, d, n, ReceiveStep(call, globalMax)(reg, d))
    {
      CompletionStep(reg, d, call, globalMax, n);
    }
  }

  lemma ReceiveConfined(call: Call, globalMax: Option<int>)
    ensures ConfinedLikeReceive(ReceiveStep(call, globalMax))
  {
  }

  /**
   The run only accumulated: the size grew by the deliveries' total, the
   metadata is still unknown, the record exists once a chunk arrived, and
   every reply is BUSY, one being sent for each successful write.
   */
  predicate AccumulatedRun(reg: Registry, ds: seq<Delivery>, run: (Registry, seq<Outcome>), c: ClientId, t: TransId) {
    && |run.1| == |ds|
    && PriorSize(run.0, c, t) == PriorSize(reg, c, t) + TotalSize(ds)
    && MetaOf(run.0, c, t).None?
    && (ds != [] ==> Lookup(run.0, c, t).Some?)
    && (forall i :: 0 <= i < |ds| && ds[i].io.write.WriteOk? ==> run.1[i].reply == Some(Reply(Busy, None)))
    && (forall i :: 0 <= i < |ds| && run.1[i].reply.Some? ==> run.1[i].reply.value.status == Busy)
  }

  /** One accumulating step in front of an accumulating run is an accumulating run. */
  lemma AccumulatedRunCons(reg: Registry, ds: seq<Delivery>, first: (Registry, Outcome),
                           tail: (Registry, seq<Outcome>), c: ClientId, t: TransId)
    requires |ds| > 0 && NoFilenameOutcome(reg, ds[0], first)
    requires ds[0].req.clientId == c && ds[0].req.transId == t
    requires AccumulatedRun(first.0, ds[1..], tail, c, t)
    requires |ds| == 1 ==> tail.0 == first.0
    ensures AccumulatedRun(reg, ds, (tail.0, [first.1] + tail.1), c, t)
  {
    var outs := [first.1] + tail.1;
    assert forall i :: 1 <= i < |ds| ==> outs[i] == tail.1[i - 1] && ds[i] == ds[1..][i - 1];
  }

  lemma {:induction false} AccumulatedSizeWith(reg: Registry, ds: seq<Delivery>, step: Stepper, max: int,
                                               c: ClientId, t: TransId)
    requires AccumulatesLikeReceive(step, max)
    requires SameTransfer(ds, c, t)
    requires forall i :: 0 <= i < |ds| ==> !Truthy(ds[i].req.filename)
    requires MetaOf(reg, c, t).None?
    requires DeclaredWithin(ds, max)
    requires PriorSize(reg, c, t) + TotalSize(ds) <= max
    ensures AccumulatedRun(reg, ds, RunWith(reg, ds, step), c, t)
    decreases |ds|
  {
    if ds != [] {
      var d, rest := ds[0], ds[1..];
      var first := step(reg, d);
      var tail := RunWith(first.0, rest, step);
      assert RunWith(reg, ds, step) == (tail.0, [first.1] + tail.1);
      assert d.req.clientId == c && d.req.transId == t && !Truthy(d.req.filename);
      assert DeclaredTotal(d.req).None? || DeclaredTotal(d.req).value <= max;
      assert NoFilenameCase(reg, d, max);
      assert forall i :: 0 <= i < |rest| ==> rest[i] == ds[i + 1];
      AccumulatedSizeWith(first.0, rest, step, max, c, t);
      AccumulatedRunCons(reg, ds, first, tail, c, t);
    }
  }

  /**
   While no chunk carries a filename and the maximum is never crossed, the
   accumulated size is the prior size plus the sum of the chunks' sizes,
   streams counted by what they drained, and every reply is BUSY.
   */
  lemma AccumulatedSize(reg: Registry, ds: seq<Delivery>, call: Call, globalMax: Option<int>, c: ClientId, t: TransId)
    requires SameTransfer(ds, c, t)
    requires forall i :: 0 <= i < |ds| ==> !Truthy(ds[i].req.filename)
    requires MetaOf(reg, c, t).None?
    requires DeclaredWithin(ds, CallMax(call, globalMax))
    requires PriorSize(reg, c, t) + TotalSize(ds) <= CallMax(call, globalMax)
    ensures AccumulatedRun(reg, ds, Run(reg, ds, call, globalMax), c, t)
  {
    ReceiveAccumulates(call, globalMax);
    AccumulatedSizeWith(reg, ds, ReceiveStep(call, globalMax), CallMax(call, globalMax), c, t);
  }

  /** When the record of the delivery's transfer is there after the step, it grew by the delivery's size. */
  predicate GrowsBy(reg: Registry, d: Delivery, after: (Registry, Outcome)) {
    Lookup(after.0, d.req.clientId, d.req.transId).Some? ==>
      PriorSize(after.0, d.req.clientId, d.req.transId) == PriorSize(reg, d.req.clientId, d.req.transId) + EffectiveSize(d)
  }

  /**
   Any chunk, with or without a filename: if its transfer's record exists
   after the call, the chunk was admitted and counted, stream correction
   included, and nothing else changed the size.
   */
  lemma SurvivingStep(reg: Registry, d: Delivery, call: Call, globalMax: Option<int>)
    ensures GrowsBy(reg, d, Receive(reg, d.req, call, globalMax, d.io))
  {
    if !ExceedsMax(DeclaredTotal(d.req), PriorSize(reg, d.req.clientId, d.req.transId) + ChunkSize(d.req.payload),
                   CallMax(call, globalMax)) {
      var args := ResolveArgs(call.maxFileSize, call.callback, globalMax);
      var admit := Admit(reg, d.req, args.maxFileSize);
      assert admit.1 == Admitted(ChunkSize(d.req.payload));
      if d.io.write.WriteOk? {
        AdmittedStep(reg, d, call, globalMax);
      }
    }
  }

  /** `step` grows a surviving record the way a handler call does. */
  ghost predicate GrowsLikeReceive(step: Stepper) {
    forall reg: Registry, d: Delivery :: GrowsBy(reg, d, step(reg, d))
  }

  lemma ReceiveGrows(call: Call, globalMax: Option<int>)
    ensures GrowsLikeReceive(ReceiveStep(call, globalMax))
  {
    forall reg: Registry, d: Delivery
      ensures GrowsBy(reg, d, ReceiveStep(call, globalMax)(reg, d))
    {
      SurvivingStep(reg, d, call, globalMax);
    }
  }

  /** The record of `(c, t)` exists after every step of the run. */
  predicate Survives(reg: Registry, ds: seq<Delivery>, step: Stepper, c: ClientId, t: TransId)
    decreases |ds|
  {
    ds == [] || (Lookup(step(reg, ds[0]).0, c, t).Some? && Survives(step(reg, ds[0]).0, ds[1..], step, c, t))
  }

  lemma {:induction false} SurvivingSizeWith(reg: Registry, ds: seq<Delivery>, step: Stepper, c: ClientId, t: TransId)
    requires GrowsLikeReceive(step)
    requires SameTransfer(ds, c, t)
    requires Survives(reg, ds, step, c, t)
    ensures PriorSize(RunWith(reg, ds, step).0, c, t) == PriorSize(reg, c, t) + TotalSize(ds)
    ensures ds != [] ==> Lookup(RunWith(reg, ds, step).0, c, t).Some?
    decreases |ds|
  {
    if ds != [] {
      var first := step(reg, ds[0]);
      assert GrowsBy(reg, ds[0], first);
      assert ds[0].req.clientId == c && ds[0].req.transId == t;
      assert SameTransfer(ds[1..], c, t) by {
        assert forall i :: 0 <= i < |ds[1..]| ==> ds[1..][i] == ds[i + 1];
      }
      SurvivingSizeWith(first.0, ds[1..], step, c, t);
    }
  }

  /**
   Whatever the chunks carry (filenames, metadata, a completion that is
   merged but not cleaned up): as long as the record survives every call, its
   size is the prior size plus the sum of the chunks' sizes, streams counted
   by what they drained.
   */
  lemma SurvivingSize(reg: Registry, ds: seq<Delivery>, call: Call, globalMax: Option<int>, c: ClientId, t: TransId)
    requires SameTransfer(ds, c, t)
    requires Survives(reg, ds, ReceiveStep(call, globalMax), c, t)
    ensures PriorSize(Run(reg, ds, call, globalMax).0, c, t) == PriorSize(reg, c, t) + TotalSize(ds)
    ensures ds != [] ==> Lookup(Run(reg, ds, call, globalMax).0, c, t).Some?
  {
    ReceiveGrows(call, globalMax);
    SurvivingSizeWith(reg, ds, ReceiveStep(call, globalMax), c, t);
  }

  /** The chunk indices of the deliveries are pairwise distinct and none is already stored. */
  predicate FreshDistinctChunks(ds: seq<Delivery>, seen: set<ChunkId>) {
    && (forall i :: 0 <= i < |ds| ==> ds[i].req.partial !in seen)
    && (forall i, j :: 0 <= i < j < |ds| ==> ds[i].req.partial != ds[j].req.partial)
  }

  /** The metadata is known already or some delivery carries a filename. */
  predicate FilenameArrives(reg: Registry, ds: seq<Delivery>, c: ClientId, t: TransId) {
    MetaOf(reg, c, t).Some? || exists i :: 0 <= i < |ds| && Truthy(ds[i].req.filename)
  }

  /** Every write, merge and callback of the deliveries succeeds. */
  predicate IoSucceeds(ds: seq<Delivery>) {
    forall i :: 0 <= i < |ds| ==> ds[i].io.write.WriteOk? && ds[i].io.merge.Merged? && ds[i].io.settle.Fulfilled?
  }

  /** Every delivery carrying a filename has a chunk index that parses to `n`. */
  predicate CountsTo(ds: seq<Delivery>, n: nat) {
    forall i :: 0 <= i < |ds| && Truthy(ds[i].req.filename) ==> ParseInt(ds[i].req.partial) == Some(n)
  }

  /** The per-delivery hypotheses hold of the tail of a run. */
  lemma TailKeepsPerDelivery(ds: seq<Delivery>, max: int, c: ClientId, t: TransId, n: nat)
    requires |ds| > 0 && SameTransfer(ds, c, t) && CountsTo(ds, n) && IoSucceeds(ds) && DeclaredWithin(ds, max)
    ensures SameTransfer(ds[1..], c, t) && CountsTo(ds[1..], n) && IoSucceeds(ds[1..]) && DeclaredWithin(ds[1..], max)
  {
    assert forall i :: 0 <= i < |ds| - 1 ==> ds[1..][i] == ds[i + 1];
  }

  /** Once the first chunk index is stored, the remaining ones are still fresh and distinct. */
  lemma TailKeepsFresh(ds: seq<Delivery>, seen: set<ChunkId>)
    requires |ds| > 0 && FreshDistinctChunks(ds, seen)
    ensures FreshDistinctChunks(ds[1..], seen + {ds[0].req.partial})
    ensures |seen + {ds[0].req.partial}| == |seen| + 1
  {
    var rest := ds[1..];
    forall i | 0 <= i < |rest| ensures rest[i].req.partial !in seen + {ds[0].req.partial} {
      assert rest[i] == ds[i + 1];
    }
    forall i, j | 0 <= i < j < |rest| ensures rest[i].req.partial != rest[j].req.partial {
      assert rest[i] == ds[i + 1] && rest[j] == ds[j + 1];
    }
  }

  /** If the first chunk did not bring the filename, a later one still does. */
  lemma TailKeepsFilename(reg: Registry, next: Registry, ds: seq<Delivery>, c: ClientId, t: TransId)
    requires |ds| > 0 && FilenameArrives(reg, ds, c, t)
    requires MetaOf(next, c, t).Some? <==> Truthy(ds[0].req.filename) || MetaOf(reg, c, t).Some?
    ensures FilenameArrives(next, ds[1..], c, t)
  {
    if MetaOf(next, c, t).None? {
      var i :| 0 <= i < |ds| && Truthy(ds[i].req.filename);
      assert i != 0;
      assert ds[1..][i - 1] == ds[i];
    }
  }

  /**
   The deliveries form the rest of a transfer of `n` chunks: one transfer,
   fresh distinct chunk indices that make up `n` with those stored, every
   filename-bearing index parsing to `n`, all I/O succeeding, and no size
   above `max`.
   */
  predicate TransferOf(reg: Registry, ds: seq<Delivery>, max: int, c: ClientId, t: TransId, n: nat) {
    && |ds| > 0 && SameTransfer(ds, c, t)
    && FreshDistinctChunks(ds, ChunkKeys(reg, c, t))
    && |ChunkKeys(reg, c, t)| + |ds| == n
    && CountsTo(ds, n)
    && (MetaOf(reg, c, t).Some? ==> MetaOf(reg, c, t).value.count == Some(n))
    && FilenameArrives(reg, ds, c, t)
    && IoSucceeds(ds)
    && DeclaredWithin(ds, max)
    && PriorSize(reg, c, t) + TotalSize(ds) <= max
  }

  /** The first delivery of such a transfer is a completion case. */
  lemma FirstOfTransfer(reg: Registry, ds: seq<Delivery>, max: int, c: ClientId, t: TransId, n: nat)
    requires TransferOf(reg, ds, max, c, t, n)
    ensures CompletionCase(reg, ds[0], max, n)
    ensures ds[0].req.clientId == c && ds[0].req.transId == t
  {
    var d := ds[0];
    assert DeclaredTotal(d.req).None? || DeclaredTotal(d.req).value <= max;
    assert d.io.write.WriteOk? && d.io.merge.Merged? && d.io.settle.Fulfilled?;
  }

  /** The only remaining delivery completes the transfer. */
  lemma LastOfTransfer(reg: Registry, ds: seq<Delivery>, step: Stepper, max: int, c: ClientId, t: TransId, n: nat)
    requires CompletesLikeReceive(step, max, n)
    requires TransferOf(reg, ds, max, c, t, n) && |ds| == 1
    ensures Lookup(step(reg, ds[0]).0, c, t) == None
    ensures step(reg, ds[0]).1.reply.Some? && step(reg, ds[0]).1.reply.value.status == Ok
    ensures step(reg, ds[0]).1.removedFile == Some(ds[0].io.merge.artifact.path)
  {
    FirstOfTransfer(reg, ds, max, c, t, n);
    assert Truthy(ds[0].req.filename) || MetaOf(reg, c, t).Some?;
  }

  /** An earlier delivery is answered BUSY and leaves the rest a transfer of `n` chunks. */
  lemma EarlierOfTransfer(reg: Registry, ds: seq<Delivery>, step: Stepper, max: int, c: ClientId, t: TransId, n: nat)
    requires CompletesLikeReceive(step, max, n)
    requires TransferOf(reg, ds, max, c, t, n) && |ds| > 1
    ensures step(reg, ds[0]).1.reply == Some(Reply(Busy, None))
    ensures TransferOf(step(reg, ds[0]).0, ds[1..], max, c, t, n)
  {
    FirstOfTransfer(reg, ds, max, c, t, n);
    var next := step(reg, ds[0]).0;
    assert CompletionOutcome(reg, ds[0], n, step(reg, ds[0]));
    TailKeepsPerDelivery(ds, max, c, t, n);
    TailKeepsFresh(ds, ChunkKeys(reg, c, t));
    TailKeepsFilename(reg, next, ds, c, t);
  }

  /**
   The run ended the transfer: its record is gone, every delivery but the
   last was answered BUSY, and the last one OK with its artifact removed.
   */
  predicate CompletedRun(ds: seq<Delivery>, run: (Registry, seq<Outcome>), c: ClientId, t: TransId) {
    && |ds| > 0 && |run.1| == |ds|
    && Lookup(run.0, c, t) == None
    && (forall i :: 0 <= i < |ds| - 1 ==> run.1[i].reply == Some(Reply(Busy, None)))
    && run.1[|ds| - 1].reply.Some? && run.1[|ds| - 1].reply.value.status == Ok
    && ds[|ds| - 1].io.merge.Merged?
    && run.1[|ds| - 1].removedFile == Some(ds[|ds| - 1].io.merge.artifact.path)
  }

  /** A BUSY step in front of a completing run is a completing run. */
  lemma CompletedRunCons(ds: seq<Delivery>, first: Outcome, tail: (Registry, seq<Outcome>), c: ClientId, t: TransId)
    requires |ds| > 1 && CompletedRun(ds[1..], tail, c, t)
    requires first.reply == Some(Reply(Busy, None))
    ensures CompletedRun(ds, (tail.0, [first] + tail.1), c, t)
  {
    var outs := [first] + tail.1;
    assert forall i :: 1 <= i < |ds| ==> outs[i] == tail.1[i - 1];
    assert ds[|ds| - 1] == ds[1..][|ds| - 2];
  }

  lemma {:induction false} CompletesOnLastChunkWith(reg: Registry, ds: seq<Delivery>, step: Stepper, max: int,
                                                    c: ClientId, t: TransId, n: nat)
    requires CompletesLikeReceive(step, max, n)
    requires TransferOf(reg, ds, max, c, t, n)
    ensures CompletedRun(ds, RunWith(reg, ds, step), c, t)
    decreases |ds|
  {
    var first := step(reg, ds[0]);
    var tail := RunWith(first.0, ds[1..], step);
    assert RunWith(reg, ds, step) == (tail.0, [first.1] + tail.1);
    if |ds| == 1 {
      LastOfTransfer(reg, ds, step, max, c, t, n);
    } else {
      EarlierOfTransfer(reg, ds, step, max, c, t, n);
      CompletesOnLastChunkWith(first.0, ds[1..], step, max, c, t, n);
      CompletedRunCons(ds, first.1, tail, c, t);
    }
  }

  /**
   A transfer of `n` distinct chunks whose filename-bearing chunk has an index
   parsing to `n` completes exactly on its last chunk, whatever the arrival
   order: every earlier chunk is answered BUSY, the last one OK, and the
   record is gone afterwards.
   */
  lemma CompletesOnLastChunk(reg: Registry, ds: seq<Delivery>, call: Call, globalMax: Option<int>,
                             c: ClientId, t: TransId, n: nat)
    requires |ds| > 0 && SameTransfer(ds, c, t)
    requires FreshDistinctChunks(ds, ChunkKeys(reg, c, t))
    requires |ChunkKeys(reg, c, t)| + |ds| == n
    requires CountsTo(ds, n)
    requires MetaOf(reg, c, t).Some? ==> MetaOf(reg, c, t).value.count == Some(n)
    requires FilenameArrives(reg, ds, c, t)
    requires IoSucceeds(ds)
    requires DeclaredWithin(ds, CallMax(call, globalMax))
    requires PriorSize(reg, c, t) + TotalSize(ds) <= CallMax(call, globalMax)
    ensures CompletedRun(ds, Run(reg, ds, call, globalMax), c, t)
  {
    ReceiveCompletes(call, globalMax, n);
    assert TransferOf(reg, ds, CallMax(call, globalMax), c, t, n);
    CompletesOnLastChunkWith(reg, ds, ReceiveStep(call, globalMax), CallMax(call, globalMax), c, t, n);
  }

  lemma {:induction false} RunOnlyTouchesWith(reg: Registry, ds: seq<Delivery>, step: Stepper, c: ClientId, t: TransId)
    requires ConfinedLikeReceive(step)
    requires SameTransfer(ds, c, t)
    ensures OnlyTouches(reg, RunWith(reg, ds, step).0, c, t)
    ensures NoEmptyClients(reg) ==> NoEmptyClients(RunWith(reg, ds, step).0)
    decreases |ds|
  {
    if ds != [] {
      assert ds[0].req.clientId == c && ds[0].req.transId == t;
      var next := step(reg, ds[0]).0;
      assert SameTransfer(ds[1..], c, t) by {
        assert forall i :: 0 <= i < |ds| - 1 ==> ds[1..][i] == ds[i + 1];
      }
      RunOnlyTouchesWith(next, ds[1..], step, c, t);
      OnlyTouchesTransitive(reg, next, RunWith(next, ds[1..], step).0, c, t);
    }
  }

  /**
   A run of chunks of one transfer changes no other transfer, of this client
   or any other, even one with the same transfer id, and leaves no empty
   client entry behind.
   */
  lemma RunOnlyTouches(reg: Registry, ds: seq<Delivery>, call: Call, globalMax: Option<int>, c: ClientId, t: TransId)
    requires SameTransfer(ds, c, t)
    ensures OnlyTouches(reg, Run(reg, ds, call, globalMax).0, c, t)
    ensures NoEmptyClients(reg) ==> NoEmptyClients(Run(reg, ds, call, globalMax).0)
  {
    ReceiveConfined(call, globalMax);
    RunOnlyTouchesWith(reg, ds, ReceiveStep(call, globalMax), c, t);
  }

  /** The purge after a tripped guard restores a registry in which the transfer had no record. */
  lemma AdmitRejectionNoResidue(reg: Registry, req: Request, max: int)
    requires NoEmptyClients(reg)
    requires Lookup(reg, req.clientId, req.transId) == None
    ensures Admit(reg, req, max).1.TooLarge? ==> Admit(reg, req, max).0 == reg
  {
    var c, t := req.clientId, req.transId;
    var grown := Put(reg, c, t, Accumulate(None, ChunkSize(req.payload)));
    if Admit(reg, req, max).1.TooLarge? {
      assert Admit(reg, req, max).0 == RemoveTransfer(grown, c, t);
      if c in reg {
        assert grown[c] - {t} == reg[c];
        assert reg[c] != map[];
        assert RemoveTransfer(grown, c, t) == reg[c := reg[c]];
      } else {
        assert grown[c] - {t} == map[];
        assert RemoveTransfer(grown, c, t) == grown - {c};
        assert grown - {c} == reg;
      }
    }
  }

  /**
   A chunk rejected by the size guard for a transfer that had no record leaves
   the registry exactly as it was: no residual record and no empty client entry.
   */
  lemma RejectionLeavesNoResidue(reg: Registry, req: Request, call: Call, globalMax: Option<int>, io: Io)
    requires NoEmptyClients(reg)
    requires Lookup(reg, req.clientId, req.transId) == None
    ensures var (reg', out) := Receive(reg, req, call, globalMax, io);
            out.reply.Some? && out.reply.value.status == SizeExceeded ==> reg' == reg
  {
    AdmitRejectionNoResidue(reg, req, CallMax(call, globalMax));
  }

  /** After a rejection the transfer starts again from a fresh record: the next chunk's size is all it holds. */
  lemma RestartAfterRejection(reg: Registry, req: Request, next: Request, call: Call, globalMax: Option<int>,
                              io: Io, max: int)
    requires next.clientId == req.clientId && next.transId == req.transId
    ensures var (reg', out) := Receive(reg, req, call, globalMax, io);
            var (reg'', adm) := Admit(reg', next, max);
            out.reply.Some? && out.reply.value.status == SizeExceeded && adm.Admitted? ==>
              Lookup(reg'', next.clientId, next.transId) == Some(Record(ChunkSize(next.payload), None, map[]))
  {
  }
}

=== FILE: receiver.dfy ===
/**
 The chunk receiver: one call of `recieveFile` as three atomic steps on the
 registry. Admit sizes the chunk, creates or grows the transfer record and
 runs the size guard; Commit (after the temp-file write) applies the stream
 size correction, stores the chunk path and the metadata, and tests
 completeness; Finalize replies and, once the callback has fulfilled, removes
 the record. The temp-file write, the merge and the callback are I/O and come
 in as their results.
 */
module Receiver {
  import opened Wrappers
  import opened JsValues
  import opened Config
  import opened Registry

  /** The request payload, by the shape the handler detects. */
  datatype Payload =
    | Buffer(bytes: seq<byte>)
    | Text(text: string)
    | Stream(contentLength: Option<nat>)  // the parsed content-length header
    | Unsized                             // anything else

  /** The headers of one chunk request, and its payload. */
  datatype Request = Request(
    clientId: ClientId,
    transId: TransId,
    partial: ChunkId,
    filename: Option<string>,   // x-filename
    totalSize: Option<string>,  // x-total-size
    xData: Option<string>,      // x-data
    payload: Payload)

  /**
   The size a chunk contributes when it is admitted: a buffer its length, a
   string its UTF-8 byte length, a stream its content-length header (0
   without one), anything else 0.
   */
  function ChunkSize(p: Payload): (n: nat)
    ensures p.Buffer? ==> n == |p.bytes|
    ensures p.Text? ==> n == |Utf8Encode(p.text)|
    ensures p.Stream? ==> n == p.contentLength.GetOr(0)
    ensures p.Unsized? ==> n == 0
  {
    match p
    case Buffer(bytes) => |bytes|
    case Text(s) => Utf8LengthIsEncodedLength(s); Utf8Length(s)
    case Stream(len) => len.GetOr(0)
    case Unsized => 0
  }

  /** The declared total size: `parseInt` of x-total-size, or of "0" when it is missing. */
  function DeclaredTotal(req: Request): Option<int> {
    ParseInt(OrDefault(req.totalSize, "0"))
  }

  /** The accumulated size of `(c, t)` before this chunk; 0 when there is no record. */
  function PriorSize(reg: Registry, c: ClientId, t: TransId): int {
    match Lookup(reg, c, t)
    case Some(rec) => rec.cumulated
    case None => 0
  }

  /** The size guard: the declared total or the accumulated size is above the maximum (NaN never is). */
  predicate ExceedsMax(declared: Option<int>, cumulated: int, max: int) {
    (declared.Some? && declared.value > max) || cumulated > max
  }

  /** The record after a chunk of `size` bytes is counted: a fresh record, or the old one grown. */
  function Accumulate(prior: Option<Record>, size: nat): (rec: Record)
    ensures rec.cumulated == (if prior.Some? then prior.value.cumulated else 0) + size
    ensures prior.Some? ==> rec.meta == prior.value.meta && rec.chunks == prior.value.chunks
    ensures prior.None? ==> rec.meta == None && rec.chunks == map[]
  {
    match prior
    case None => Record(size, None, map[])
    case Some(rec) => rec.(cumulated := rec.cumulated + size)
  }

  datatype Admission = Admitted(size: nat) | TooLarge

  /**
   Admit: count the chunk into its record (creating it on first sight) and run
   the size guard. When the guard trips the record is purged, together with
   the client entry if nothing else is left in it; otherwise the grown record
   stays, within the maximum.
   */
  function Admit(reg: Registry, req: Request, max: int): (r: (Registry, Admission))
    ensures r.1.TooLarge? <==>
              ExceedsMax(DeclaredTotal(req), PriorSize(reg, req.clientId, req.transId) + ChunkSize(req.payload), max)
    ensures r.1.TooLarge? ==> Lookup(r.0, req.clientId, req.transId) == None
    ensures r.1.TooLarge? ==> (req.clientId in r.0 <==> HasOtherTransfer(reg, req.clientId, req.transId))
    ensures r.1.Admitted? ==>
              && r.1.size == ChunkSize(req.payload)
              && Lookup(r.0, req.clientId, req.transId)
                 == Some(Accumulate(Lookup(reg, req.clientId, req.transId), r.1.size))
              && Lookup(r.0, req.clientId, req.transId).value.cumulated <= max
    ensures OnlyTouches(reg, r.0, req.clientId, req.transId)
    ensures NoEmptyClients(reg) ==> NoEmptyClients(r.0)
  {
    var c, t := req.clientId, req.transId;
    var size := ChunkSize(req.payload);
    var grown := Put(reg, c, t, Accumulate(Lookup(reg, c, t), size));
    if ExceedsMax(DeclaredTotal(req), PriorSize(reg, c, t) + size, max) then
      var purged := RemoveTransfer(grown, c, t);
      OnlyTouchesTransitive(reg, grown, purged, c, t);
      (purged, TooLarge)
    else
      (grown, Admitted(size))
  }

  /** The outcome of writing the chunk to its temp file; `drained` is what a stream delivered. */
  datatype WriteResult = WriteOk(path: Path, drained: nat) | WriteFailed

  /** Bytes added after the write: a stream counted as 0 is counted by what it drained. */
  function Correction(p: Payload, size: nat, drained: nat): nat {
    if p.Stream? && size == 0 then drained else 0
  }

  /** The x-data value: parsed when present, `{}` when absent, empty or unparsable. */
  function ParseData(xData: Option<string>, parse: string -> Option<Json>): (d: Json)
    ensures !Truthy(xData) ==> d == EmptyObject
    ensures Truthy(xData) && parse(xData.value).None? ==> d == EmptyObject
    ensures Truthy(xData) && parse(xData.value).Some? ==> d == parse(xData.value).value
  {
    if Truthy(xData) then parse(xData.value).GetOr(EmptyObject) else EmptyObject
  }

  /**
   The record after the chunk is committed: the stream correction, the chunk
   path under its index (a re-sent index overwrites), and, from the chunk
   carrying a filename only, the count, filename and data.
   */
  function CommitRecord(rec: Record, req: Request, size: nat, path: Path, drained: nat,
                         parse: string -> Option<Json>): (r: Record)
    ensures r.cumulated == rec.cumulated + Correction(req.payload, size, drained)
    ensures r.chunks.Keys == rec.chunks.Keys + {req.partial} && r.chunks[req.partial] == path
    ensures forall k :: k in rec.chunks && k != req.partial ==> r.chunks[k] == rec.chunks[k]
    ensures Truthy(req.filename) ==>
              r.meta == Some(Meta(ParseInt(req.partial), req.filename.value, ParseData(req.xData, parse)))
    ensures !Truthy(req.filename) ==> r.meta == rec.meta
  {
    var meta :=
      if Truthy(req.filename) then Some(Meta(ParseInt(req.partial), req.filename.value, ParseData(req.xData, parse)))
      else rec.meta;
    Record(rec.cumulated + Correction(req.payload, size, drained), meta, rec.chunks[req.partial := path])
  }

  /**
   Commit: apply CommitRecord to the record of the request's transfer. When
   the record is gone the source fails with a TypeError; that is `None`.
   */
  function Commit(reg: Registry, req: Request, size: nat, path: Path, drained: nat,
                  parse: string -> Option<Json>): (r: Option<(Registry, Record)>)
    ensures r.None? <==> Lookup(reg, req.clientId, req.transId).None?
    ensures r.Some? ==>
              && r.value.1 == CommitRecord(Lookup(reg, req.clientId, req.transId).value, req, size, path, drained, parse)
              && Lookup(r.value.0, req.clientId, req.transId) == Some(r.value.1)
              && OnlyTouches(reg, r.value.0, req.clientId, req.transId)
              && (NoEmptyClients(reg) ==> NoEmptyClients(r.value.0))
  {
    match Lookup(reg, req.clientId, req.transId)
    case None => None
    case Some(rec) =>
      var committed := CommitRecord(rec, req, size, path, drained, parse);
      Some((Put(reg, req.clientId, req.transId, committed), committed))
  }

  /** What the storage helper's merge hands back: the built file and the original filename. */
  datatype Artifact = Artifact(path: Path, originalFilename: string)

  datatype MergeResult = Merged(artifact: Artifact) | MergeFailed

  /**
   How the callback's returned value settles; `Fulfilled(None)` is undefined
   or null. `Threw` is a callback that throws while it is being called, before
   any value is returned.
   */
  datatype Settlement = Fulfilled(value: Option<Json>) | Rejected | Threw

  datatype Status = Ok | Busy | SizeExceeded

  /** The status string of a reply. */
  function StatusText(s: Status): string {
    match s
    case Ok => "OK"
    case Busy => "BUSY"
    case SizeExceeded => "Error: max filesize exceeded"
  }

  /** The HTTP status code of a reply. */
  function HttpCode(s: Status): nat {
    if s == SizeExceeded then 403 else 200
  }

  datatype Reply = Reply(status: Status, data: Option<Json>)

  /**
   What one call produces: the reply sent (if any), whether the returned
   promise rejects, and the merged file handed to the storage helper for
   removal (if any).
   */
  datatype Outcome = Outcome(reply: Option<Reply>, failed: bool, removedFile: Option<Path>)

  /**
   How the value the handler waits on settles: the callback's result when it
   was called (a merged file and a callback exist), otherwise null.
   */
  function CallbackSettlement(filedata: Option<Artifact>, hasCallback: bool, settle: Settlement): (s: Settlement)
    ensures filedata.None? || !hasCallback ==> s == Fulfilled(None)
    ensures filedata.Some? && hasCallback ==> s == settle
  {
    if filedata.Some? && hasCallback then settle else Fulfilled(None)
  }

  /**
   Finalize: reply OK for a merged transfer and BUSY otherwise, and remove the
   record (and an emptied client entry) once the callback has fulfilled. A
   callback that throws does so before any reply, so the call fails with no
   reply and the record stays. With `waitForCb` false the reply goes out
   before the callback's value settles and a rejection is only logged;
   otherwise the reply waits for the value and a rejection fails the call
   without a reply.
   */
  function Finalize(reg: Registry, c: ClientId, t: TransId, filedata: Option<Artifact>,
                    hasCallback: bool, settle: Settlement, waitForCb: bool): (r: (Registry, Outcome))
    ensures var s := CallbackSettlement(filedata, hasCallback, settle);
            var cleaned := filedata.Some? && s.Fulfilled?;
            && (cleaned ==> Lookup(r.0, c, t) == None && r.1.removedFile == Some(filedata.value.path)
                            && (c in r.0 <==> HasOtherTransfer(reg, c, t)))
            && (!cleaned ==> r.0 == reg && r.1.removedFile == None)
            && (r.1.reply.Some? <==> (!waitForCb && !s.Threw?) || s.Fulfilled?)
            && (r.1.failed <==> (waitForCb && s.Rejected?) || s.Threw?)
            && (r.1.reply.Some? ==> r.1.reply.value.status == (if filedata.Some? then Ok else Busy))
            && (r.1.reply.Some? && waitForCb && filedata.Some? ==> r.1.reply.value.data == s.value)
            && (r.1.reply.Some? && (!waitForCb || filedata.None?) ==> r.1.reply.value.data == None)
    ensures OnlyTouches(reg, r.0, c, t)
    ensures NoEmptyClients(reg) ==> NoEmptyClients(r.0)
  {
    var s := CallbackSettlement(filedata, hasCallback, settle);
    var status := if filedata.Some? then Ok else Busy;
    var cleaned := filedata.Some? && s.Fulfilled?;
    var reg' := if cleaned then RemoveTransfer(reg, c, t) else reg;
    var removed := if cleaned then Some(filedata.value.path) else None;
    if s.Threw? then
      (reg, Outcome(None, true, None))
    else if !waitForCb then
      (reg', Outcome(Some(Reply(status, None)), false, removed))
    else
      match s
      case Rejected => (reg, Outcome(None, true, None))
      case Fulfilled(v) => (reg', Outcome(Some(Reply(status, if filedata.Some? then v else None)), false, removed))
  }

  /**
   The arguments of one call besides the request. `waitForCb` is false only
   when the caller passes `false` itself; an omitted or any other value waits
   for the callback.
   */
  datatype Call = Call(maxFileSize: MaxArg, callback: Option<Callback>, waitForCb: bool)

  /** The results of the I/O one call performs, and the x-data parser. */
  datatype Io = Io(write: WriteResult, merge: MergeResult, parse: string -> Option<Json>, settle: Settlement)

  /** The maximum one call enforces. */
  function CallMax(call: Call, globalMax: Option<int>): int {
    ResolveArgs(call.maxFileSize, call.callback, globalMax).maxFileSize
  }

  /**
   After the commit: test completeness; a complete transfer is merged and
   finalized with the merged file, an incomplete one finalized without. A
   failed merge fails the call and keeps the record.
   */
  function Conclude(reg: Registry, c: ClientId, t: TransId, rec: Record, hasCallback: bool,
                    merge: MergeResult, settle: Settlement, waitForCb: bool): (r: (Registry, Outcome))
    ensures OnlyTouches(reg, r.0, c, t)
    ensures NoEmptyClients(reg) ==> NoEmptyClients(r.0)
    ensures !TransferComplete(rec) ==> r.0 == reg && r.1.removedFile == None && !r.1.failed
                                        && (r.1.reply.Some? && r.1.reply.value == Reply(Busy, None))
    ensures r.1.reply.Some? ==> r.1.reply.value.status != SizeExceeded
    ensures r.1.reply.Some? && r.1.reply.value.status == Ok ==> TransferComplete(rec) && merge.Merged?
    ensures r.1.removedFile.Some? ==>
              && TransferComplete(rec) && merge.Merged? && r.1.removedFile == Some(merge.artifact.path)
              && Lookup(r.0, c, t) == None && (c in r.0 <==> HasOtherTransfer(reg, c, t))
    ensures r.1.removedFile.None? ==> r.0 == reg
    ensures TransferComplete(rec) && merge.MergeFailed? ==> r == (reg, Outcome(None, true, None))
    ensures r.1.reply.Some? ==> !r.1.failed
  {
    if !TransferComplete(rec) then
      Finalize(reg, c, t, None, hasCallback, settle, waitForCb)
    else
      match merge
      case MergeFailed => (reg, Outcome(None, true, None))
      case Merged(artifact) => Finalize(reg, c, t, Some(artifact), hasCallback, settle, waitForCb)
  }

  /**
   After admission: the temp-file write, then Commit and Conclude. A failed
   write fails the call and leaves the admitted record as it is.
   */
  function Store(reg: Registry, req: Request, size: nat, hasCallback: bool, io: Io, waitForCb: bool)
    : (r: (Registry, Outcome))
    ensures OnlyTouches(reg, r.0, req.clientId, req.transId)
    ensures NoEmptyClients(reg) ==> NoEmptyClients(r.0)
    ensures r.1.reply.Some? ==> r.1.reply.value.status != SizeExceeded
    ensures r.1.reply.Some? && r.1.reply.value.status == Ok ==> io.write.WriteOk? && io.merge.Merged?
    ensures r.1.removedFile.Some? ==>
              && io.merge.Merged? && r.1.removedFile == Some(io.merge.artifact.path)
              && Lookup(r.0, req.clientId, req.transId) == None
              && (req.clientId in r.0 <==> HasOtherTransfer(reg, req.clientId, req.transId))
    ensures io.write.WriteFailed? ==> r == (reg, Outcome(None, true, None))
    ensures r.1.reply.Some? ==> !r.1.failed
  {
    match io.write
    case WriteFailed => (reg, Outcome(None, true, None))
    case WriteOk(path, drained) =>
      match Commit(reg, req, size, path, drained, io.parse)
      case None => (reg, Outcome(None, true, None))
      case Some((committed, rec)) =>
        var (final, outcome) :=
          Conclude(committed, req.clientId, req.transId, rec, hasCallback, io.merge, io.settle, waitForCb);
        OnlyTouchesTransitive(reg, committed, final, req.clientId, req.transId);
        (final, outcome)
  }

  /**
   One call of the handler for one chunk: resolve the arguments, Admit, then
   Store. The size error is replied exactly when the guard trips.
   */
  function Receive(reg: Registry, req: Request, call: Call, globalMax: Option<int>, io: Io): (r: (Registry, Outcome))
    ensures OnlyTouches(reg, r.0, req.clientId, req.transId)
    ensures NoEmptyClients(reg) ==> NoEmptyClients(r.0)
    ensures (r.1.reply.Some? && r.1.reply.value.status == SizeExceeded) <==>
              ExceedsMax(DeclaredTotal(req), PriorSize(reg, req.clientId, req.transId) + ChunkSize(req.payload),
                         CallMax(call, globalMax))
    ensures r.1.reply.Some? && r.1.reply.value.status == SizeExceeded ==>
              && r.1 == Outcome(Some(Reply(SizeExceeded, None)), true, None)
              && Lookup(r.0, req.clientId, req.transId) == None
              && (req.clientId in r.0 <==> HasOtherTransfer(reg, req.clientId, req.transId))
    ensures r.1.reply.Some? && r.1.reply.value.status == Ok ==> io.write.WriteOk? && io.merge.Merged?
    ensures r.1.reply.Some? && r.1.reply.value.status != SizeExceeded ==> !r.1.failed
    ensures r.1.removedFile.Some? ==>
              && io.merge.Merged? && r.1.removedFile == Some(io.merge.artifact.path)
              && Lookup(r.0, req.clientId, req.transId) == None
              && (req.clientId in r.0 <==> HasOtherTransfer(reg, req.clientId, req.transId))
    ensures !ExceedsMax(DeclaredTotal(req), PriorSize(reg, req.clientId, req.transId) + ChunkSize(req.payload),
                        CallMax(call, globalMax)) && io.write.WriteFailed? ==>
              && r.1 == Outcome(None, true, None)
              && Lookup(r.0, req.clientId, req.transId)
                 == Some(Accumulate(Lookup(reg, req.clientId, req.transId), ChunkSize(req.payload)))
  {
    var args := ResolveArgs(call.maxFileSize, call.callback, globalMax);
    var (admitted, admission) := Admit(reg, req, args.maxFileSize);
    match admission
    case TooLarge => (admitted, Outcome(Some(Reply(SizeExceeded, None)), true, None))
    case Admitted(size) =>
      var (final, outcome) := Store(admitted, req, size, args.callback.Some?, io, call.waitForCb);
      OnlyTouchesTransitive(reg, admitted, final, req.clientId, req.transId);
      (final, outcome)
  }
}

=== FILE: registry.dfy ===
/**
 The transmission registry: client id -> transfer id -> transfer record.
 A record holds the accumulated byte count, the metadata that arrives with
 the filename-bearing chunk, and the staged temp-file path of each chunk.
 */
module Registry {
  import opened Wrappers

  type ClientId = string  // the x-clientid header
  type TransId = string   // the x-transid header
  type ChunkId = string   // the x-partial header, used verbatim as a key
  type Path = string      // a temp-file path handed out by the storage helper

  /** A parsed x-data value; an object, or any other JSON value kept as text. */
  datatype Json = JObject(fields: map<string, Json>) | JOther(text: string)

  const EmptyObject: Json := JObject(map[])

  /**
   The fields set by the filename-bearing chunk: `count` (the parsed chunk
   index; None for NaN), `filename` and `data`.
   */
  datatype Meta = Meta(count: Option<int>, filename: string, data: Json)

  /**
   One in-flight transfer. `cumulated` is the source's `cummulatedSize`; the
   chunk entries, which the source stores as extra properties of the same
   object, are kept in their own map.
   */
  datatype Record = Record(cumulated: int, meta: Option<Meta>, chunks: map<ChunkId, Path>)

  type Registry = map<ClientId, map<TransId, Record>>

  function Lookup(reg: Registry, c: ClientId, t: TransId): Option<Record> {
    if c in reg && t in reg[c] then Some(reg[c][t]) else None
  }

  /** The transfers of one client; none when the client has no entry. */
  function Transfers(reg: Registry, c: ClientId): map<TransId, Record> {
    if c in reg then reg[c] else map[]
  }

  /** Every client entry holds at least one transfer. */
  ghost predicate NoEmptyClients(reg: Registry) {
    forall c :: c in reg ==> reg[c] != map[]
  }

  /** `reg'` differs from `reg` at most in the record of `(c, t)` and the presence of `c`'s entry. */
  ghost predicate OnlyTouches(reg: Registry, reg': Registry, c: ClientId, t: TransId) {
    && (forall c' :: c' != c ==> (c' in reg' <==> c' in reg) && Transfers(reg', c') == Transfers(reg, c'))
    && (forall t' :: t' != t ==> Lookup(reg', c, t') == Lookup(reg, c, t'))
  }

  /** The client has a transfer other than `t`. */
  ghost predicate HasOtherTransfer(reg: Registry, c: ClientId, t: TransId) {
    exists t' :: t' != t && Lookup(reg, c, t').Some?
  }

  lemma OnlyTouchesTransitive(r0: Registry, r1: Registry, r2: Registry, c: ClientId, t: TransId)
    requires OnlyTouches(r0, r1, c, t) && OnlyTouches(r1, r2, c, t)
    ensures OnlyTouches(r0, r2, c, t)
    ensures HasOtherTransfer(r2, c, t) <==> HasOtherTransfer(r0, c, t)
  {
    if HasOtherTransfer(r0, c, t) {
      var t' :| t' != t && Lookup(r0, c, t').Some?;
      assert Lookup(r2, c, t').Some?;
    }
    if HasOtherTransfer(r2, c, t) {
      var t' :| t' != t && Lookup(r2, c, t').Some?;
      assert Lookup(r0, c, t').Some?;
    }
  }

  /** Store `rec` as the record of `(c, t)`, creating the client entry if needed. */
  function Put(reg: Registry, c: ClientId, t: TransId, rec: Record): (r: Registry)
    ensures Lookup(r, c, t) == Some(rec)
    ensures OnlyTouches(reg, r, c, t)
    ensures NoEmptyClients(reg) ==> NoEmptyClients(r)
  {
    reg[c := Transfers(reg, c)[t := rec]]
  }

  /**
   Delete the record of `(c, t)`, then delete `c`'s entry if it has no
   transfer left.
   */
  function RemoveTransfer(reg: Registry, c: ClientId, t: TransId): (r: Registry)
    ensures Lookup(r, c, t) == None
    ensures OnlyTouches(reg, r, c, t)
    ensures c in r <==> HasOtherTransfer(reg, c, t)
    ensures NoEmptyClients(reg) ==> NoEmptyClients(r)
  {
    if c !in reg then reg
    else
      var rest := reg[c] - {t};
      assert rest != map[] ==> HasOtherTransfer(reg, c, t) by {
        if rest != map[] {
          var t' :| t' in rest;
          assert Lookup(reg, c, t').Some?;
        }
      }
      assert rest == map[] ==> forall t' :: t' != t ==> t' !in reg[c] by {
        if rest == map[] {
          forall t' | t' != t ensures t' !in reg[c] {
            assert t' !in rest;
          }
        }
      }
      if rest == map[] then reg - {c} else reg[c := rest]
  }

  /**
   Number of own properties of the source's record object: `cummulatedSize`,
   the three metadata keys once the filename-bearing chunk has been stored,
   and one per chunk index.
   */
  function PropertyCount(rec: Record): nat {
    1 + (if rec.meta.Some? then 3 else 0) + |rec.chunks|
  }

  /**
   The completeness test as the source writes it: `count` is truthy and the
   record has `count + 4` properties. Equivalently: the count is known,
   nonzero and equal to the number of distinct chunk indices stored.
   */
  function TransferComplete(rec: Record): (done: bool)
    ensures done <==> rec.meta.Some? && rec.meta.value.count == Some(|rec.chunks|) && |rec.chunks| != 0
  {
    && rec.meta.Some?
    && rec.meta.value.count.Some?
    && rec.meta.value.count.value != 0
    && PropertyCount(rec) == rec.meta.value.count.value + 4
  }
}

=== FILE: scenarios.dfy ===
/**
 Concrete runs of the handler. A transfer whose chunks are numbered from 1
 completes on its last chunk and leaves the registry empty; the same transfer
 numbered from 0 never completes; a declared size above the maximum is
 refused with 403 and leaves nothing behind; and a stream whose size is only
 learnt from the write can carry the record past the maximum unnoticed.
 */
module Scenarios {
  import opened Wrappers
  import opened JsValues
  import opened Config
  import opened Registry
  import opened Receiver
  import opened Properties

  /** A chunk request with a buffer payload and no size or data header. */
  function BufferChunk(c: ClientId, t: TransId, index: ChunkId, filename: Option<string>, bytes: seq<byte>): Request {
    Request(c, t, index, filename, None, None, Buffer(bytes))
  }

  /** The write, the merge and the callback of one call all succeed. */
  predicate Succeeds(io: Io) {
    io.write.WriteOk? && io.merge.Merged? && io.settle.Fulfilled?
  }

  /** Three chunks of one transfer, the last carrying the filename. */
  function ThreeChunks(c: ClientId, t: TransId, indices: (string, string, string), name: string,
                       b1: seq<byte>, b2: seq<byte>, b3: seq<byte>, io1: Io, io2: Io, io3: Io): (ds: seq<Delivery>)
    ensures |ds| == 3 && SameTransfer(ds, c, t)
  {
    [Delivery(BufferChunk(c, t, indices.0, None, b1), io1),
     Delivery(BufferChunk(c, t, indices.1, None, b2), io2),
     Delivery(BufferChunk(c, t, indices.2, Some(name), b3), io3)]
  }

  /** A registry that started empty and lost the only record it was given is empty again. */
  lemma EmptyAgain(r: Registry, c: ClientId, t: TransId)
    requires OnlyTouches(map[], r, c, t) && NoEmptyClients(r) && Lookup(r, c, t) == None
    ensures r == map[]
  {
    forall t' ensures t' !in Transfers(r, c) {
      assert Lookup(r, c, t') == None;
    }
    assert Transfers(r, c) == map[];
  }

  /** A run of three deliveries is its three steps in order. */
  lemma RunOfThree(reg: Registry, ds: seq<Delivery>, step: Stepper)
    requires |ds| == 3
    ensures var s1 := step(reg, ds[0]);
            var s2 := step(s1.0, ds[1]);
            var s3 := step(s2.0, ds[2]);
            RunWith(reg, ds, step) == (s3.0, [s1.1, s2.1, s3.1])
  {
    var s1 := step(reg, ds[0]);
    var s2 := step(s1.0, ds[1]);
    var s3 := step(s2.0, ds[2]);
    var tail2 := ds[1..];
    var tail3 := tail2[1..];
    assert tail2[0] == ds[1] && tail3 == [ds[2]] && tail3[1..] == [];
    assert RunWith(s3.0, tail3[1..], step) == (s3.0, []);
    var r3 := RunWith(s2.0, tail3, step);
    assert r3.0 == s3.0 && r3.1 == [s3.1];
    var r2 := RunWith(s1.0, tail2, step);
    assert r2.0 == s3.0 && r2.1 == [s2.1, s3.1];
    var r1 := RunWith(reg, ds, step);
    assert r1.0 == s3.0 && r1.1 == [s1.1, s2.1, s3.1];
  }

  /** The total size of three deliveries is the sum of their sizes. */
  lemma TotalOfThree(ds: seq<Delivery>)
    requires |ds| == 3
    ensures TotalSize(ds) == EffectiveSize(ds[0]) + EffectiveSize(ds[1]) + EffectiveSize(ds[2])
  {
    var rest := ds[1..];
    assert rest[0] == ds[1] && rest[1..] == [ds[2]] && [ds[2]][1..] == [];
    assert TotalSize([ds[2]]) == EffectiveSize(ds[2]);
    assert TotalSize(rest) == EffectiveSize(ds[1]) + EffectiveSize(ds[2]);
  }

  /** The buffer chunks add up to their lengths and declare no total. */
  lemma ThreeChunksSizes(c: ClientId, t: TransId, indices: (string, string, string), name: string,
                         b1: seq<byte>, b2: seq<byte>, b3: seq<byte>, io1: Io, io2: Io, io3: Io, max: int)
    requires 0 <= max
    ensures var ds := ThreeChunks(c, t, indices, name, b1, b2, b3, io1, io2, io3);
            && TotalSize(ds) == |b1| + |b2| + |b3|
            && DeclaredWithin(ds, max)
            && (forall i :: 0 <= i < 3 ==> DeclaredTotal(ds[i].req) == Some(0))
  {
    var ds := ThreeChunks(c, t, indices, name, b1, b2, b3, io1, io2, io3);
    TotalOfThree(ds);
    BufferSize(ds[0]);
    BufferSize(ds[1]);
    BufferSize(ds[2]);
    NoHeaderDeclaresZero(ds[0].req);
    NoHeaderDeclaresZero(ds[1].req);
    NoHeaderDeclaresZero(ds[2].req);
  }

  /** A buffer chunk adds exactly its length. */
  lemma BufferSize(d: Delivery)
    requires d.req.payload.Buffer?
    ensures EffectiveSize(d) == |d.req.payload.bytes|
  {
  }

  /** A chunk without a total-size header declares 0 bytes. */
  lemma NoHeaderDeclaresZero(req: Request)
    requires req.totalSize.None?
    ensures DeclaredTotal(req) == Some(0)
  {
    SmallIndices();
  }

  /** The decimal spellings used below read back as their values. */
  lemma SmallIndices()
    ensures ParseInt("0") == Some(0) && ParseInt("2") == Some(2) && ParseInt("3") == Some(3)
  {
    assert NatToDecimal(0) + [] == "0";
    assert NatToDecimal(2) + [] == "2";
    assert NatToDecimal(3) + [] == "3";
    ParseIntDecimal(0, []);
    ParseIntDecimal(2, []);
    ParseIntDecimal(3, []);
  }

  /** Three deliveries with pairwise distinct indices are fresh in an empty record. */
  lemma ThreeDistinct(ds: seq<Delivery>)
    requires |ds| == 3
    requires ds[0].req.partial != ds[1].req.partial && ds[2].req.partial !in {ds[0].req.partial, ds[1].req.partial}
    ensures FreshDistinctChunks(ds, {})
  {
  }

  /** Only the last of three deliveries carries a filename, and its index reads `n`. */
  lemma ThreeCounts(ds: seq<Delivery>, n: nat, c: ClientId, t: TransId)
    requires |ds| == 3
    requires !Truthy(ds[0].req.filename) && !Truthy(ds[1].req.filename)
    requires Truthy(ds[2].req.filename) && ParseInt(ds[2].req.partial) == Some(n)
    ensures CountsTo(ds, n) && FilenameArrives(map[], ds, c, t)
  {
    assert Truthy(ds[2].req.filename);
  }

  /** Three deliveries whose I/O all succeeds. */
  lemma ThreeSucceed(ds: seq<Delivery>)
    requires |ds| == 3 && Succeeds(ds[0].io) && Succeeds(ds[1].io) && Succeeds(ds[2].io)
    ensures IoSucceeds(ds)
  {
  }

  /**
   Three fresh, distinct chunks of `(c, t)` into an empty registry, the
   filename on the last and its index reading 3, are a whole transfer.
   */
  lemma ThreeIsTransfer(ds: seq<Delivery>, max: int, c: ClientId, t: TransId)
    requires |ds| == 3 && SameTransfer(ds, c, t) && DeclaredWithin(ds, max) && TotalSize(ds) <= max
    requires ds[0].req.partial != ds[1].req.partial && ds[2].req.partial !in {ds[0].req.partial, ds[1].req.partial}
    requires !Truthy(ds[0].req.filename) && !Truthy(ds[1].req.filename)
    requires Truthy(ds[2].req.filename) && ParseInt(ds[2].req.partial) == Some(3)
    requires Succeeds(ds[0].io) && Succeeds(ds[1].io) && Succeeds(ds[2].io)
    ensures TransferOf(map[], ds, max, c, t, 3)
  {
    assert ChunkKeys(map[], c, t) == {} && PriorSize(map[], c, t) == 0;
    ThreeDistinct(ds);
    ThreeCounts(ds, 3, c, t);
    ThreeSucceed(ds);
  }

  /** Chunks "1", "2", "3" with the filename on "3" are the whole of a 3-chunk transfer. */
  lemma OneBasedIsTransfer(c: ClientId, t: TransId, name: string, b1: seq<byte>, b2: seq<byte>, b3: seq<byte>,
                           io1: Io, io2: Io, io3: Io, max: int)
    requires name != ""
    requires Succeeds(io1) && Succeeds(io2) && Succeeds(io3)
    requires |b1| + |b2| + |b3| <= max
    ensures TransferOf(map[], ThreeChunks(c, t, ("1", "2", "3"), name, b1, b2, b3, io1, io2, io3), max, c, t, 3)
  {
    var ds := ThreeChunks(c, t, ("1", "2", "3"), name, b1, b2, b3, io1, io2, io3);
    SmallIndices();
    ThreeChunksSizes(c, t, ("1", "2", "3"), name, b1, b2, b3, io1, io2, io3, max);
    ThreeIsTransfer(ds, max, c, t);
  }

  lemma OneBasedCompletesWith(ds: seq<Delivery>, step: Stepper, max: int, c: ClientId, t: TransId)
    requires CompletesLikeReceive(step, max, 3) && ConfinedLikeReceive(step)
    requires TransferOf(map[], ds, max, c, t, 3)
    ensures var run := RunWith(map[], ds, step);
            && run.0 == map[]
            && run.1[0].reply == Some(Reply(Busy, None))
            && run.1[1].reply == Some(Reply(Busy, None))
            && run.1[2].reply.Some? && run.1[2].reply.value.status == Ok
            && run.1[2].removedFile == Some(ds[2].io.merge.artifact.path)
  {
    CompletesOnLastChunkWith(map[], ds, step, max, c, t, 3);
    RunOnlyTouchesWith(map[], ds, step, c, t);
    EmptyAgain(RunWith(map[], ds, step).0, c, t);
  }

  /**
   Chunks "1", "2", "3" of one transfer, the filename on "3", into an empty
   registry: BUSY, BUSY, then OK with the merged file removed, and the
   registry is empty again.
   */
  lemma OneBasedTransferCompletes(c: ClientId, t: TransId, name: string, b1: seq<byte>, b2: seq<byte>, b3: seq<byte>,
                                  io1: Io, io2: Io, io3: Io, call: Call, globalMax: Option<int>)
    requires name != ""
    requires Succeeds(io1) && Succeeds(io2) && Succeeds(io3)
    requires |b1| + |b2| + |b3| <= CallMax(call, globalMax)
    ensures var run := Run(map[], ThreeChunks(c, t, ("1", "2", "3"), name, b1, b2, b3, io1, io2, io3), call, globalMax);
            && run.0 == map[]
            && run.1[0].reply == Some(Reply(Busy, None))
            && run.1[1].reply == Some(Reply(Busy, None))
            && run.1[2].reply.Some? && run.1[2].reply.value.status == Ok
            && run.1[2].removedFile == Some(io3.merge.artifact.path)
  {
    var ds := ThreeChunks(c, t, ("1", "2", "3"), name, b1, b2, b3, io1, io2, io3);
    var max := CallMax(call, globalMax);
    OneBasedIsTransfer(c, t, name, b1, b2, b3, io1, io2, io3, max);
    ReceiveCompletes(call, globalMax, 3);
    ReceiveConfined(call, globalMax);
    OneBasedCompletesWith(ds, ReceiveStep(call, globalMax), max, c, t);
  }

  /** A fresh chunk without a filename, while the metadata is unknown, is stored and answered BUSY. */
  lemma BusyStep(reg: Registry, d: Delivery, step: Stepper, max: int, n: nat)
    requires CompletesLikeReceive(step, max, n)
    requires CompletionCase(reg, d, max, n) && !Truthy(d.req.filename)
    requires MetaOf(reg, d.req.clientId, d.req.transId).None?
    ensures var c, t, after := d.req.clientId, d.req.transId, step(reg, d);
            && after.1.reply == Some(Reply(Busy, None))
            && ChunkKeys(after.0, c, t) == ChunkKeys(reg, c, t) + {d.req.partial}
            && MetaOf(after.0, c, t).None?
            && PriorSize(after.0, c, t) == PriorSize(reg, c, t) + EffectiveSize(d)
  {
    assert CompletionOutcome(reg, d, n, step(reg, d));
  }

  /** The first two chunks, neither carrying the filename, are stored and answered BUSY. */
  lemma {:induction false} ZeroBasedPrefix(d0: Delivery, d1: Delivery, step: Stepper, max: int, c: ClientId, t: TransId)
    requires CompletesLikeReceive(step, max, 2)
    requires d0.req.clientId == c && d0.req.transId == t && d1.req.clientId == c && d1.req.transId == t
    requires d0.req.partial != d1.req.partial
    requires !Truthy(d0.req.filename) && !Truthy(d1.req.filename)
    requires d0.io.write.WriteOk? && d0.io.merge.Merged? && d0.io.settle.Fulfilled?
    requires d1.io.write.WriteOk? && d1.io.merge.Merged? && d1.io.settle.Fulfilled?
    requires DeclaredTotal(d0.req) == Some(0) && DeclaredTotal(d1.req) == Some(0)
    requires EffectiveSize(d0) + EffectiveSize(d1) <= max
    ensures var s1 := step(map[], d0);
            var s2 := step(s1.0, d1);
            && s1.1.reply == Some(Reply(Busy, None)) && s2.1.reply == Some(Reply(Busy, None))
            && ChunkKeys(s2.0, c, t) == {d0.req.partial, d1.req.partial} && MetaOf(s2.0, c, t).None?
            && PriorSize(s2.0, c, t) == EffectiveSize(d0) + EffectiveSize(d1)
  {
    var s1 := step(map[], d0);
    assert ChunkSize(d0.req.payload) <= EffectiveSize(d0);
    BusyStep(map[], d0, step, max, 2);
    assert ChunkSize(d1.req.payload) <= EffectiveSize(d1);
    BusyStep(s1.0, d1, step, max, 2);
  }

  /**
   A fresh filename-bearing chunk whose index parses to 2, after two chunks
   without metadata, sets the count to 2 while a third index is stored: the
   transfer stays incomplete and the reply is BUSY again.
   */
  lemma {:induction false} ZeroBasedLast(reg: Registry, d: Delivery, step: Stepper, max: int, c: ClientId, t: TransId,
                                         p0: ChunkId, p1: ChunkId, prior: nat)
    requires CompletesLikeReceive(step, max, 2)
    requires d.req.clientId == c && d.req.transId == t
    requires Truthy(d.req.filename) && ParseInt(d.req.partial) == Some(2)
    requires d.io.write.WriteOk? && d.io.merge.Merged? && d.io.settle.Fulfilled?
    requires DeclaredTotal(d.req) == Some(0)
    requires ChunkKeys(reg, c, t) == {p0, p1} && p0 != p1 && d.req.partial !in {p0, p1} && MetaOf(reg, c, t).None?
    requires PriorSize(reg, c, t) == prior && prior + EffectiveSize(d) <= max
    ensures var after := step(reg, d);
            && after.1.reply == Some(Reply(Busy, None))
            && Lookup(after.0, c, t).Some?
            && ChunkKeys(after.0, c, t) == {p0, p1, d.req.partial}
            && MetaOf(after.0, c, t).Some? && MetaOf(after.0, c, t).value.count == Some(2)
            && !TransferComplete(Lookup(after.0, c, t).value)
  {
    ThirdChunkIsCase(reg, d, max, c, t, p0, p1, prior);
    ThirdChunkStalls(reg, d, step(reg, d), c, t, p0, p1);
  }

  /** The third chunk is a completion case of a 2-chunk transfer. */
  lemma ThirdChunkIsCase(reg: Registry, d: Delivery, max: int, c: ClientId, t: TransId,
                         p0: ChunkId, p1: ChunkId, prior: nat)
    requires d.req.clientId == c && d.req.transId == t
    requires Truthy(d.req.filename) && ParseInt(d.req.partial) == Some(2)
    requires d.io.write.WriteOk? && d.io.merge.Merged? && d.io.settle.Fulfilled?
    requires DeclaredTotal(d.req) == Some(0)
    requires ChunkKeys(reg, c, t) == {p0, p1} && d.req.partial !in {p0, p1} && MetaOf(reg, c, t).None?
    requires PriorSize(reg, c, t) == prior && prior + EffectiveSize(d) <= max
    ensures CompletionCase(reg, d, max, 2)
  {
    assert CompletionIo(reg, d, 2);
    AdmittedWithin(d);
  }

  /** The size a chunk is admitted with is at most what it finally adds. */
  lemma AdmittedWithin(d: Delivery)
    ensures ChunkSize(d.req.payload) <= EffectiveSize(d)
  {
  }

  /** The outcome a completion case of a 2-chunk transfer has on a third fresh index. */
  lemma ThirdChunkStalls(reg: Registry, d: Delivery, after: (Registry, Outcome), c: ClientId, t: TransId,
                         p0: ChunkId, p1: ChunkId)
    requires d.req.clientId == c && d.req.transId == t && Truthy(d.req.filename)
    requires ChunkKeys(reg, c, t) == {p0, p1} && p0 != p1 && d.req.partial !in {p0, p1}
    requires CompletionOutcome(reg, d, 2, after)
    ensures && after.1.reply == Some(Reply(Busy, None))
            && Lookup(after.0, c, t).Some?
            && ChunkKeys(after.0, c, t) == {p0, p1, d.req.partial}
            && MetaOf(after.0, c, t).Some? && MetaOf(after.0, c, t).value.count == Some(2)
            && !TransferComplete(Lookup(after.0, c, t).value)
  {
    assert |ChunkKeys(reg, c, t)| == 2;
    assert |ChunkKeys(after.0, c, t)| == 3;
  }

  lemma {:induction false} ZeroBasedStallsWith(d0: Delivery, d1: Delivery, d2: Delivery, step: Stepper, max: int,
                                               c: ClientId, t: TransId)
    requires CompletesLikeReceive(step, max, 2)
    requires d0.req.clientId == c && d0.req.transId == t && d1.req.clientId == c && d1.req.transId == t
    requires d2.req.clientId == c && d2.req.transId == t
    requires d0.req.partial != d1.req.partial && d2.req.partial !in {d0.req.partial, d1.req.partial}
    requires !Truthy(d0.req.filename) && !Truthy(d1.req.filename)
    requires Truthy(d2.req.filename) && ParseInt(d2.req.partial) == Some(2)
    requires d0.io.write.WriteOk? && d0.io.merge.Merged? && d0.io.settle.Fulfilled?
    requires d1.io.write.WriteOk? && d1.io.merge.Merged? && d1.io.settle.Fulfilled?
    requires d2.io.write.WriteOk? && d2.io.merge.Merged? && d2.io.settle.Fulfilled?
    requires DeclaredTotal(d0.req) == Some(0) && DeclaredTotal(d1.req) == Some(0) && DeclaredTotal(d2.req) == Some(0)
    requires EffectiveSize(d0) + EffectiveSize(d1) + EffectiveSize(d2) <= max
    ensures var s1 := step(map[], d0);
            var s2 := step(s1.0, d1);
            var s3 := step(s2.0, d2);
            && s1.1.reply == Some(Reply(Busy, None)) && s2.1.reply == Some(Reply(Busy, None))
            && s3.1.reply == Some(Reply(Busy, None))
            && Lookup(s3.0, c, t).Some?
            && ChunkKeys(s3.0, c, t) == {d0.req.partial, d1.req.partial, d2.req.partial}
            && MetaOf(s3.0, c, t).Some? && MetaOf(s3.0, c, t).value.count == Some(2)
            && !TransferComplete(Lookup(s3.0, c, t).value)
  {
    ZeroBasedPrefix(d0, d1, step, max, c, t);
    var s2 := step(step(map[], d0).0, d1);
    ZeroBasedLast(s2.0, d2, step, max, c, t, d0.req.partial, d1.req.partial, EffectiveSize(d0) + EffectiveSize(d1));
  }

  /** The same three deliveries as a run: three BUSY replies and an incomplete record. */
  lemma ZeroBasedRunStalls(d0: Delivery, d1: Delivery, d2: Delivery, step: Stepper, max: int, c: ClientId, t: TransId)
    requires CompletesLikeReceive(step, max, 2)
    requires d0.req.clientId == c && d0.req.transId == t && d1.req.clientId == c && d1.req.transId == t
    requires d2.req.clientId == c && d2.req.transId == t
    requires d0.req.partial != d1.req.partial && d2.req.partial !in {d0.req.partial, d1.req.partial}
    requires !Truthy(d0.req.filename) && !Truthy(d1.req.filename)
    requires Truthy(d2.req.filename) && ParseInt(d2.req.partial) == Some(2)
    requires d0.io.write.WriteOk? && d0.io.merge.Merged? && d0.io.settle.Fulfilled?
    requires d1.io.write.WriteOk? && d1.io.merge.Merged? && d1.io.settle.Fulfilled?
    requires d2.io.write.WriteOk? && d2.io.merge.Merged? && d2.io.settle.Fulfilled?
    requires DeclaredTotal(d0.req) == Some(0) && DeclaredTotal(d1.req) == Some(0) && DeclaredTotal(d2.req) == Some(0)
    requires EffectiveSize(d0) + EffectiveSize(d1) + EffectiveSize(d2) <= max
    ensures var run := RunWith(map[], [d0, d1, d2], step);
            && run.1[0].reply == Some(Reply(Busy, None)) && run.1[1].reply == Some(Reply(Busy, None))
            && run.1[2].reply == Some(Reply(Busy, None))
            && Lookup(run.0, c, t).Some?
            && ChunkKeys(run.0, c, t) == {d0.req.partial, d1.req.partial, d2.req.partial}
            && MetaOf(run.0, c, t).Some? && MetaOf(run.0, c, t).value.count == Some(2)
            && !TransferComplete(Lookup(run.0, c, t).value)
  {
    ZeroBasedStallsWith(d0, d1, d2, step, max, c, t);
    RunOfThree(map[], [d0, d1, d2], step);
  }

  /**
   Chunks "0", "1", "2", the filename on "2", with every write succeeding:
   every reply is BUSY and the transfer is left incomplete, because the
   count taken from the index is 2 while three chunks are stored.
   */
  lemma ZeroBasedTransferStalls(c: ClientId, t: TransId, name: string, b1: seq<byte>, b2: seq<byte>, b3: seq<byte>,
                                io1: Io, io2: Io, io3: Io, call: Call, globalMax: Option<int>)
    requires name != ""
    requires Succeeds(io1) && Succeeds(io2) && Succeeds(io3)
    requires |b1| + |b2| + |b3| <= CallMax(call, globalMax)
    ensures var run := Run(map[], ThreeChunks(c, t, ("0", "1", "2"), name, b1, b2, b3, io1, io2, io3), call, globalMax);
            && run.1[0].reply == Some(Reply(Busy, None)) && run.1[1].reply == Some(Reply(Busy, None))
            && run.1[2].reply == Some(Reply(Busy, None))
            && Lookup(run.0, c, t).Some?
            && ChunkKeys(run.0, c, t) == {"0", "1", "2"}
            && MetaOf(run.0, c, t).Some? && MetaOf(run.0, c, t).value.count == Some(2)
            && !TransferComplete(Lookup(run.0, c, t).value)
  {
    var ds := ThreeChunks(c, t, ("0", "1", "2"), name, b1, b2, b3, io1, io2, io3);
    var max := CallMax(call, globalMax);
    ThreeChunksSizes(c, t, ("0", "1", "2"), name, b1, b2, b3, io1, io2, io3, max);
    TotalOfThree(ds);
    SmallIndices();
    assert Truthy(ds[2].req.filename);
    assert ds == [ds[0], ds[1], ds[2]];
    ReceiveCompletes(call, globalMax, 2);
    ZeroBasedRunStalls(ds[0], ds[1], ds[2], ReceiveStep(call, globalMax), max, c, t);
  }

  /**
   A chunk declaring a total of "2000" bytes against a maximum of 1000 is
   refused with the size error and HTTP 403, and a registry without that
   transfer is left exactly as it was.
   */
  lemma DeclaredTotalRefused(reg: Registry, req: Request, call: Call, globalMax: Option<int>, io: Io)
    requires NoEmptyClients(reg) && Lookup(reg, req.clientId, req.transId) == None
    requires req.totalSize == Some("2000") && CallMax(call, globalMax) == 1000
    ensures var after := Receive(reg, req, call, globalMax, io);
            && after.0 == reg
            && after.1.reply == Some(Reply(SizeExceeded, None))
            && HttpCode(after.1.reply.value.status) == 403
            && StatusText(after.1.reply.value.status) == "Error: max filesize exceeded"
            && after.1.failed
  {
    TwoThousand();
    assert DeclaredTotal(req) == Some(2000);
    SizeErrorOutcome(reg, req, call, globalMax, io);
    RejectionLeavesNoResidue(reg, req, call, globalMax, io);
  }

  /** A call whose guard trips is answered with the size error alone. */
  lemma SizeErrorOutcome(reg: Registry, req: Request, call: Call, globalMax: Option<int>, io: Io)
    requires ExceedsMax(DeclaredTotal(req), PriorSize(reg, req.clientId, req.transId) + ChunkSize(req.payload),
                        CallMax(call, globalMax))
    ensures Receive(reg, req, call, globalMax, io).1 == Outcome(Some(Reply(SizeExceeded, None)), true, None)
  {
  }

  /** The header value "2000" reads back as 2000. */
  lemma TwoThousand()
    ensures ParseInt("2000") == Some(2000)
  {
    assert NatToDecimal(2000) == "2000" by {
      assert NatToDecimal(2) == "2";
      assert NatToDecimal(20) == "2" + "0";
      assert NatToDecimal(200) == "20" + "0";
    }
    assert "2000" + [] == "2000";
    ParseIntDecimal(2000, []);
  }

  /**
   A stream chunk without a content-length is admitted at size 0; the bytes
   the write drained are added afterwards and not checked again, so a record
   can hold more than the maximum while the reply is still BUSY.
   */
  lemma StreamCorrectionPassesMax(c: ClientId, t: TransId, path: Path, io: Io, call: Call, globalMax: Option<int>)
    requires io.write == WriteOk(path, 100)
    requires CallMax(call, globalMax) == 10
    ensures var req := Request(c, t, "1", None, None, None, Stream(None));
            var after := Receive(map[], req, call, globalMax, io);
            && PriorSize(after.0, c, t) == 100 > CallMax(call, globalMax)
            && after.1.reply == Some(Reply(Busy, None))
  {
    var req := Request(c, t, "1", None, None, None, Stream(None));
    SmallIndices();
    assert DeclaredTotal(req) == Some(0);
    NoFilenameStep(map[], Delivery(req, io), call, globalMax);
  }
}

=== FILE: wrappers.dfy ===
/** Optional values: an absent request header, an unset record field, a parse that yields NaN. */
module Wrappers {

  datatype Option<+T> = None | Some(value: T) {

    /** The carried value, or `default` when there is none. */
    function GetOr(default: T): T {
      match this
      case Some(v) => v
      case None => default
    }
  }
}
